=== FILE: README.md ===
# Portfolio site scripts — a Dafny model

This project models the logic of a personal portfolio site's browser scripts, once the DOM is
abstracted away:

- **the project catalog** (`js/projects.js`, `js/main.js`). This covers the project records and
  the category filter, where `"all"` means no filtering. It also covers the featured subset
  and the lookup of a parsed id, used for card clicks and for the `?id=` deep link.
- **rendering** (`js/projects.js`, `js/main.js`). A record becomes a card or a detail view,
  modelled as abstract trees rather than HTML strings. The rules modelled are:
  - media precedence: video, then image, then placeholder;
  - the placeholder gradient is picked by `id mod 5` on cards and `id mod 4` in the modal;
  - GitHub and demo links appear only for truthy fields;
  - the long description falls back to the short one;
  - the features list appears only when present.
- **the projects page** (`js/projects.js`). A page-state machine holds the current filter, the
  grid, the empty-state message and the modal with its scroll lock. It is driven by filter
  clicks, card clicks, the overlay and close buttons, the Escape key, and the load handler.
- **the home page** (`js/main.js`). It models the featured grid and the card click that
  navigates to `/projects/?id=<id>`.
- **utilities** (`js/utils.js`):
  - the typewriter, as a step function over `(wordIndex, charIndex, isDeleting)`;
  - the throttle gate over `lastCall`;
  - the e-mail predicate;
  - `getQueryParams`;
  - the expiring key/value store.
- **the contact form** (`js/contact.js`). It models the four validators on trimmed values and
  the per-field error state. It also models the input handler that clears errors, and the
  submit gate that runs every validator and lets the submission through only when all pass.

Module layout:

| module | file | concern |
|---|---|---|
| `Wrappers` | wrappers.dfy | `Option` (`null`, `undefined`, `NaN`) |
| `Utf16` | utf16.dfy | strings as UTF-16 code units: JavaScript `length` and `substring` |
| `Text` | text.dfy | `String.prototype` pieces: white space, `trim`, ASCII `toLowerCase`, `split`/`join`, decimal writing, `parseInt` |
| `Seqs` | seqs.dfy | `Array.prototype.filter` as order-preserving selection |
| `Catalog` | catalog.dfy | project records, filter, featured subset, id lookup, both catalog literals |
| `Render` | render.dfy | cards and detail views |
| `Gallery` | gallery.dfy | the projects page |
| `Home` | home.dfy | the featured grid and its navigation |
| `Typewriter` | typewriter.dfy | `typeWriter` |
| `Throttle` | throttle.dfy | `throttle` |
| `EmailPattern` | email_pattern.dfy | `isValidEmail` and the contact form's pattern |
| `QueryParams` | query_params.dfy | `getQueryParams` |
| `ExpiryStore` | expiry_store.dfy | `setWithExpiry` / `getWithExpiry` |
| `Contact` | contact.dfy | the contact form |

Several external inputs are parameters of the model:

- **Clock readings:** the throttle's `now` and the store's `now`.
- **Random gradient picks:** on the home page, a sequence `picks` with each pick below 4.
- **URL decoding:** `decodeURIComponent` is a function parameter.
- **Page elements:** which of them exist is a `Dom` record.
- **Timers:** a timer callback is one call of a step function, and the delay it schedules is
  part of the step's result. The deep-link timer on the projects page is the project that
  `Load` returns, which the caller opens with `Gallery.Open`.

JavaScript strings are sequences of UTF-16 code units, and `length` and `substring` count
those units, so a character above U+FFFF counts twice. The model keeps Dafny strings, which are
sequences of characters, and converts with `Utf16.Encode` wherever the scripts count or cut:
in the contact form's length checks and in the typewriter. `trim`, `split` and the e-mail
pattern read the same on characters as on code units. Every white-space character, `&`, `=`,
`@` and `.` is a single unit, and no surrogate is white space.

JavaScript truthiness of an optional text field is modelled as "present and non-empty"
(`Catalog.Truthy`). The `features` array counts as present whenever it exists, even when it is
empty.

## Model

| member | source | states |
|---|---|---|
| Catalog.Filtered | js/projects.js:158-163 | Filter `"all"` gives the whole catalog in its order. Any other key gives exactly the records whose `category` includes the key's lower-case form, in catalog order (sound, complete, a subsequence). |
| Catalog.WithCategory | js/projects.js:161-163 | The records carrying a category key: every result carries it, every record that carries it is in the result, and the result is a subsequence of the catalog. |
| Catalog.WithCategoryCounts | js/projects.js:161-163 | Each record carrying the key appears exactly as often as in the catalog, and no other record appears. |
| Catalog.FilteredCounts | js/projects.js:158-163 | The filter shows each selected record exactly as often as the catalog holds it, and no other record. |
| Catalog.UnknownFilterIsEmpty | js/projects.js:161-163 | A key that no record carries yields the empty list. |
| Catalog.FilterIgnoresCase | js/projects.js:162 | A filter key and its lower-case form select the same records, unless the lower-case form is `"all"`. |
| Catalog.Featured | js/main.js:149 | The featured subset is exactly the records with `featured` set, in catalog order. |
| Catalog.FeaturedCounts | js/main.js:149 | Each featured record appears exactly as often as in the catalog, and no other record appears. |
| Catalog.HomeFeaturedIds | js/main.js:12-58 | On the shipped home catalog the featured records are projects 2, 3 and 4, in that order. |
| Catalog.FindById | js/projects.js:194 | `find` by parsed id: nothing exactly when no record has that id (or the id is `NaN`); otherwise the first record with it. |
| Catalog.FindByOwnId | js/projects.js:275 | With unique ids, looking up any record's id finds that record. |
| Catalog.PageCatalog | js/projects.js:7 | The projects page uses the published catalog when there is one, and its own literal otherwise. |
| Catalog.ShippedCatalogsWellFormed | js/projects.js:7-86 | Both catalog literals (this one and the one at js/main.js:12-58) have unique positive ids and non-empty, lower-case category lists. |
| Catalog.GalleryFilterExamples | js/projects.js:7-86 | On the projects page's own catalog, `mobile` selects projects 1 and 4 and `web` selects 2 and 3, in catalog order. |
| Render.MediaOf | js/projects.js:216-233 | Video exactly when `video` is truthy; image exactly when `video` is not and `image` is; placeholder exactly when neither is. The chosen source is the field's value. |
| Render.LinksOf | js/projects.js:246-264 | A GitHub link exists iff `github` is truthy and a demo link iff `demo` is. Each link's href is its field, and GitHub comes before demo. |
| Render.GalleryCard | js/projects.js:203-269 | The card's id attribute parses back to the record's id. Its background is transparent iff there is media, and otherwise the gradient at `id mod 5`. Title and description are the record's. Tags are copied in order. |
| Render.HomeCard | js/main.js:168-233 | The same card, with the record's title, description and tags, except that without media the gradient is the one at the random pick, so one of the first four. |
| Render.CardFor | js/main.js:199-232 | The shared card shape: parsed id, background transparent iff media, media precedence, tags and links. |
| Render.DetailFor | js/projects.js:297-369 | Black background iff media, otherwise the gradient at `id mod 4`. The body is `longDescription` when truthy and `description` otherwise. Features appear iff present, with the same items. The links follow the card's rule. |
| Render.PlaceholderDependsOnIdOnly | js/projects.js:212 | Two records with no media and the same id residue get the same placeholder background, on cards and in the modal. |
| Render.GalleryCards | js/projects.js:173 | One card per record, in order. |
| Gallery.RenderGrid | js/projects.js:158-182 | An empty result clears the grid and shows the empty state. Otherwise the empty state is hidden and there is exactly one card per result, in order. Filter and modal are unchanged. |
| Gallery.Open | js/projects.js:297-373 | When the modal and its body exist, the body is wholly replaced by the project's detail, the modal becomes active and scrolling is locked. Otherwise nothing changes. |
| Gallery.Close | js/projects.js:375-378 | The modal is inactive and scrolling is unlocked. The body content and the grid are kept. |
| Gallery.ClickTarget | js/projects.js:271-281 | A card click resolves to a record only when the card exists and its parsed id matches a record. Whenever it does match, a record is found. |
| Gallery.DeepLinkTarget | js/projects.js:190-197 | The deep link selects a record only when the `id` value is non-empty and its parse matches a record, and then it always does. |
| Gallery.Load | js/projects.js:184-201 | Without a grid nothing happens. Otherwise the grid shows the current filter, and the project to open is the deep link's target. |
| Gallery.Step | js/projects.js:138-295 | Per event: a filter click (lines 138-156) re-renders for the new key; a card click (lines 271-281) opens its target or changes nothing; overlay and close clicks close the modal when the listeners exist, and Escape closes only an active modal (lines 283-295). |
| Gallery.OpenReplaces | js/projects.js:330 | Opening B after A is the same as opening B alone. |
| Gallery.CloseIdempotent | js/projects.js:290-293 | Closing twice is closing once, and Escape on a closed modal changes nothing. |
| Gallery.StepKeepsModalConsistent | js/projects.js:371-377 | Every event keeps "modal active" equal to "scrolling locked", and an active modal always has content. |
| Gallery.StepKeepsGridShowing | js/projects.js:158-182 | On a page with a grid, every event keeps the grid equal to the cards of the current filter. |
| Gallery.ClickOpensThatCard | js/projects.js:271-280 | With unique ids, clicking the i-th card opens the i-th filtered record. |
| Gallery.DeepLinkOpensRecord | js/projects.js:190-197 | A deep link carrying a record's id, written in decimal, opens that record. |
| Gallery.UnknownDeepLinkOpensNothing | js/projects.js:193-197 | A deep link whose value matches no record opens nothing. |
| Gallery.LoadShowsWholeCatalog | js/projects.js:88-99 | Loading from the initial state shows the whole catalog in order, with the modal closed. |
| Home.FeaturedGrid | js/main.js:148-154 | Without the grid element nothing is rendered. Otherwise there is one card per featured record, in catalog order. |
| Home.ProjectAddress | js/main.js:162 | The address is the projects page with an `id` parameter whose text parses back to the project's id. |
| Home.Navigate | js/main.js:157-164 | A card click navigates only when the card's parsed id matches a record, and then to `/projects/?id=` followed by that id. |
| Home.NavigationReachesProject | js/main.js:157-164 | Clicking the i-th featured card of the home catalog navigates to that project's address. The projects page looks the id up in its own catalog, which may differ. With unique ids there, the deep link opens that catalog's record with the id, and it opens nothing when there is no such record. |
| Home.ShippedNavigation | js/projects.js:190-197 | The home page's assignment to `window.projectsData` does not survive navigation to another document. Unless the projects page publishes a catalog itself, it uses its own literal. Featured home card i (project i + 2) navigates to that id's address, and the deep link opens the literal's record with that id. |
| Home.ShippedNavigationSwapsRecord | js/projects.js:26-44 | The record the shipped projects page opens has the clicked card's id but is not the home page's record. The projects page's literal has a long description, and the home literal has none. |
| Home.ShippedFeaturedGrid | js/main.js:148-154 | The shipped home page renders three cards, whose ids parse to 2, 3 and 4. |
| Typewriter.Units | js/utils.js:48 | Each word is taken as the code units JavaScript holds for it. |
| Typewriter.Prefix | js/utils.js:51 | `substring(0, end)` on the word's code units is the prefix of length `end`, clamped into the word's bounds. |
| Typewriter.Step | js/utils.js:47-72 | Lengths and cuts count the word's UTF-16 code units. Typing shows one more unit and starts deleting exactly when the word is complete; deleting shows one fewer and moves to the next word, cyclically, exactly at zero. Delays are the pause, then 500, then the delete speed, else the typing speed. |
| Typewriter.StepKeepsValid | js/utils.js:50-67 | With non-empty words, `wordIndex` stays in range and the text is always the current word's prefix of length `charIndex`. The text grows by one while typing and shrinks by one while deleting. |
| Typewriter.StartValid | js/utils.js:43-45 | The initial state is valid when the first word is non-empty. |
| Typewriter.Run | js/utils.js:71 | Every number of timer calls keeps the state valid. |
| Typewriter.TypingFinishes | js/utils.js:50-57 | From any typed prefix, the remaining characters are typed one per tick and then deleting begins. |
| Typewriter.DeletingFinishes | js/utils.js:59-67 | From any remaining length, the characters are deleted one per tick and then the next word begins. |
| Typewriter.WordCycle | js/utils.js:63-65 | One whole word takes twice its JavaScript length (in code units) in ticks and advances `wordIndex` by exactly one, modulo the number of words. |
| Typewriter.EmptyWordStalls | js/utils.js:54 | On an empty word the typewriter never starts deleting: it keeps typing nothing. |
| Typewriter.AstralCharTakesTwoTicks | js/utils.js:51-52 | A word starting with a character above U+FFFF shows a lone high surrogate after the first tick, which reads as no character. The whole character shows after the second tick. |
| Typewriter.HeroRolesCycle | js/main.js:117-129 | The hero's five roles are all non-empty, so the typewriter cycles through them. |
| Typewriter.HeroFirstTick | js/main.js:127 | With the hero's timing of 100, 50 and 2000 ms, the first tick shows "S" and schedules the next tick after 100 ms. |
| Typewriter.FirstTick | js/utils.js:47-51 | When the first word has two or more characters and its first is below U+10000, the first tick shows that character and waits `speed`. |
| Throttle.Call | js/utils.js:89-98 | A call is forwarded iff `now - lastCall >= delay`. Then it returns `func`'s result and records `now`. Otherwise it returns nothing and the gate is unchanged. |
| Throttle.After | js/utils.js:93-96 | After a sequence of calls the gate is unchanged, or it holds the time of one of the calls. |
| Throttle.AfterCalls | js/utils.js:93-96 | The gate after a sequence of calls is the gate each `Call` leaves for the next, whatever the wrapped function. |
| Throttle.Forwarded | js/utils.js:91-97 | The forwarded calls are a subsequence of all calls. |
| Throttle.ForwardedConcat | js/utils.js:90-97 | Forwarding over two stretches of calls is forwarding over the first, then over the second from the gate the first leaves. |
| Throttle.ForwardedDecides | js/utils.js:93-96 | Call k is forwarded exactly when it comes at least `delay` after the last forwarded call before it, or after the initial `lastCall` when there is none. So a call far enough from the previous forwarded one always gets through, and every dropped call is too close to it. |
| Throttle.FreshForwarding | js/utils.js:90-96 | A fresh wrapper starts with `lastCall` 0. It forwards its first call when the clock reads at least `delay`, and it forwards nothing while every reading stays below `delay`. |
| Throttle.ForwardedSpacing | js/utils.js:90-97 | The first forwarded call is at least `delay` after the initial `lastCall`, and consecutive forwarded calls are at least `delay` apart. The gate ends on the last forwarded time. |
| EmailPattern.EmailPatternAgrees | js/utils.js:221-224 | The regular expression accepts exactly the strings with no white space, exactly one `@` that is not first, and a `.` after it that is neither the first nor the last character of the domain. |
| QueryParams.QueryString | js/utils.js:229 | The query string is the search string without its first character, and empty when the search string is. |
| QueryParams.KeyOfShape | js/utils.js:233 | A pair's key is its text before the first `=`, or all of it when it has none. |
| QueryParams.ValueOfShape | js/utils.js:233-235 | A pair's value is the text between its first and second `=`, or `''` when there is no `=`. |
| QueryParams.PieceParts | js/utils.js:233-235 | `k=v` reads as key `k` and value `v`; a piece without `=` has an empty value. |
| QueryParams.SecondEqualsDropsRest | js/utils.js:233 | In `k=v=rest`, the text after the second `=` is lost. |
| QueryParams.Pieces | js/utils.js:230 | The `&`-separated pieces join back to the query string, and none contains `&`. |
| QueryParams.Params | js/utils.js:232-237 | No pieces give the empty map. Its keys and values are stated by the three lemmas below. |
| QueryParams.ParamsSize | js/utils.js:232-237 | Each piece adds at most one key, so the map never has more keys than there are pieces. |
| QueryParams.ParamsSnoc | js/utils.js:232-237 | A piece that does not name a key leaves that key's entry as the earlier pieces made it. |
| QueryParams.GetQueryParams | js/utils.js:227-240 | An empty query gives the empty map, and every key comes from some piece with a non-empty key. |
| QueryParams.ParamsKeys | js/utils.js:232-237 | A decoded key is present iff some piece with a non-empty key decodes to it. Empty keys are skipped. |
| QueryParams.ParamsLastWins | js/utils.js:235 | A key's value is the decoded value of the last piece naming it, so later duplicates overwrite earlier ones. |
| QueryParams.EncodeThenParse | js/utils.js:227-240 | Writing plain key/value pairs as `?k1=v1&k2=v2…` and parsing them gives each key with the value of its last pair. |
| ExpiryStore.Set | js/utils.js:243-250 | The key holds the value with expiry `now + ttl`; no other key changes. |
| ExpiryStore.Get | js/utils.js:253-268 | A missing key gives null. An expired item is removed and gives null. A live item gives its value and the store is unchanged. |
| ExpiryStore.SetThenGet | js/utils.js:243-268 | After a write at `t0` with `ttl`, a read at `t` returns the value iff `t <= t0 + ttl`; an expired read removes the key. |
| ExpiryStore.SetKeepsOtherKeys | js/utils.js:243-250 | Writing one key does not change what a read of another key returns. |
| ExpiryStore.ReadableUntilExpiry | js/utils.js:261 | A read that succeeds at `t` succeeds the same way at any earlier time, and a failed read stays failed later. |
| ExpiryStore.ExpiredStaysGone | js/utils.js:261-264 | After a read has found the item expired, every later read of that key gives null. |
| Contact.Accepts | js/contact.js:33-71 | A blank value never passes. A name, subject or message passes when its trimmed value has at least the minimum number of characters, and fails when it has fewer than half. |
| Contact.AcceptsLength | js/contact.js:34-65 | On trimmed text below U+10000, a name, subject or message passes exactly when the trimmed value has at least 2, 3 or 10 characters. |
| Contact.EmojiNameAccepted | js/contact.js:34-35 | A single emoji (U+1F600) is a long enough name, because its JavaScript length is 2. A single letter is not. |
| Contact.Verdict | js/contact.js:33-71 | A validator leaves the error class, `aria-invalid` and a non-empty error text exactly when the value fails, and the text is the field's message. |
| Contact.ShowError | js/contact.js:73-81 | Showing an error sets the class, the text and `aria-invalid`. |
| Contact.Validate | js/contact.js:33-91 | A field passes iff its validator accepts the trimmed value. Its error state is set or cleared accordingly, and the values, the button and the other fields' state are unchanged. |
| Contact.Input | js/contact.js:24-30 | Typing clears only that field's error class and text. Its `aria-invalid` and the other fields' state are unchanged. |
| Contact.Submit | js/contact.js:94-117 | The submission goes ahead iff all four validators pass. Every field's error state reflects its own validator, with no short-circuit. When valid, the button is disabled and reads "Sending..."; when invalid, the button is untouched. |
| Contact.ValidateIdempotent | js/contact.js:18-21 | Leaving a field twice is leaving it once. |
| Contact.SubmitIgnoresShownErrors | js/contact.js:96-101 | The submit outcome depends only on the values, not on the errors already shown. |
| Contact.InputThenBlur | js/contact.js:18-30 | Typing into a field and leaving it shows the verdict on what was typed. |
| Contact.RefusedSubmitMarksFailures | js/contact.js:96-106 | A refused submission marks at least one field, and exactly the failing ones. |
| Contact.AcceptsTrimmed | js/contact.js:34 | Surrounding white space never changes a verdict. |
| Contact.EmailFieldUsesPattern | js/contact.js:15 | The e-mail field accepts exactly the trimmed values the pattern matches. |
| Text.Trim | js/contact.js:34 | `trim` removes exactly the leading and trailing white space. The result neither starts nor ends with white space. |
| Text.ToLower | js/projects.js:162 | Lower-casing keeps the length, maps every character through the ASCII lower-case map, and leaves no upper-case letter. |
| Text.Split | js/utils.js:230 | `split` on one character gives at least one piece. No piece contains the separator, and joining the pieces back gives the input. |
| Text.SplitJoin | js/utils.js:233 | Splitting a join of separator-free pieces gives back the pieces. |
| Text.ParseInt | js/projects.js:274 | A string with no digit gives `NaN`. A string of digits gives its value, and `-` followed by digits gives the negated value. |
| Text.NatToString | js/projects.js:236 | For ids below 10^21, `${id}` writes the shortest decimal form: digits only, with no leading zero. |
| Text.DecimalRoundTrip | js/projects.js:236 | The digits written for `n` denote `n`. |
| Text.ParseIntOfDecimal | js/projects.js:274 | `parseInt` of the written id gives back the id. |
| Seqs.Select | js/projects.js:161 | `filter` keeps exactly the elements satisfying the test, in order, as a subsequence. If every element passes, the result is the input. |
| Seqs.SelectCounts | js/projects.js:161 | `filter` keeps each passing element exactly as often as it occurs, and no failing element. |
| Utf16.Encode | js/contact.js:35 | A string's JavaScript length is between its number of characters and twice that. |
| Utf16.BmpLength | js/contact.js:35 | When every character is below U+10000, the JavaScript length is the number of characters. |
| Utf16.RoundTrip | js/utils.js:51 | Reading a string's code units back as characters gives the string: the units determine the text. |
| Utf16.HalfPairIsIllFormed | js/utils.js:51 | Cutting a character above U+FFFF after its first code unit leaves a lone high surrogate, which reads as no string. |
| Utf16.EmojiCountsTwice | js/contact.js:35 | U+1F600 has JavaScript length 2, and a letter has length 1. |
| Seqs.SelectConcat | js/projects.js:161 | Filtering a concatenation is concatenating the filtered parts. |

## Left out

- `js/animations.js`, `js/about.js`, and the navbar and mobile-menu handlers in `js/main.js` and `js/projects.js`. They are DOM class toggles, geometry, floating-point transforms and animation frames.
- `animateCounter`, `formatDate`, `parseMarkdown`, `copyToClipboard`, `showToast`, `lazyLoadImages`, `preloadImages`, `initPagePreloading`, `initPageTransitions`, `random` and `generateId`. They are not core logic: they rely on timers, `Intl`, regex replacement or the clipboard.
- Exact HTML/SVG markup and CSS strings other than the gradients. Cards and details are abstract trees.
- Wall-clock timers: the 300 ms deep-link delay and the typewriter's `setTimeout` calls. Delays are returned values, and `Load` returns the project the timer opens.
- `Math.random` in the home page's card gradient. The picks are a parameter.
- `URLSearchParams` on the projects page. The deep link receives the `id` value (or its absence) as given.
- Text.NatToString: writes every natural number in plain decimal. JavaScript writes numbers of 10^21 or more in exponent form ("1e+21"), which is left out because catalog ids are small.
- Catalog.Filtered: its contract does not fix how often a repeated record is shown. `Catalog.FilteredCounts` states that, because the clause inside the function's contract makes the proofs about the shipped catalogs too costly.
- Catalog.WithCategory: its contract does not fix multiplicity either. `Catalog.WithCategoryCounts` states it, for the same reason.
- Catalog.Featured: its contract does not fix multiplicity either. `Catalog.FeaturedCounts` states it, for the same reason.
- QueryParams.Params: its own contract only says that no pieces give no entries. The key set, the last-wins values and the size bound are in `QueryParams.ParamsKeys`, `QueryParams.ParamsLastWins` and `QueryParams.ParamsSize`, because clauses about the map inside the function's contract make those inductive proofs too costly.
- Seqs.Select: its own contract fixes membership and order but not how often a repeated element is kept. That is stated separately by `Seqs.SelectCounts`, because adding it to the function's contract makes its proof too costly.
- Contact.Accepts: its own contract brackets the length rule instead of stating it exactly. JavaScript counts UTF-16 code units, so a character above U+FFFF counts twice. The exact threshold is stated by `Contact.AcceptsLength` for text below U+10000, and the counting of code units is shown by `Contact.EmojiNameAccepted`.
- Typewriter.Step: requires a non-empty word list. With no words, `words[0]` is `undefined` and the first `type()` call throws a TypeError, which is not modelled. The one caller passes five roles.
- Catalog.Project: ids are natural numbers. A negative id would make `id % gradients.length` negative in JavaScript and pick an `undefined` gradient, which is not modelled. Both shipped catalogs use ids 1 to 4.
- Text.ParseInt: models base-ten `parseInt` only. A `0x` prefix, digits beyond exact double precision and the `-0`/`0` distinction are left out, because catalog ids are small positive integers.
- Text.ToLower: maps ASCII letters only. Unicode case mapping is left out, because every category key and filter value in the site is ASCII.
- `decodeURIComponent` is an uninterpreted parameter. Its `URIError` on malformed escapes is left out.
- `JSON.stringify`/`JSON.parse` in the expiring store are taken to round-trip the stored value. Values that do not survive JSON, and a stored string that is not JSON, are left out.
- Special object keys such as `__proto__` in `getQueryParams` are treated like any other key.
- The filter buttons' `active` class, which is presentation only.
- Clicks on a card's GitHub and demo links are not modelled as events. Their `stopPropagation` keeps such a click from reaching the card's handler, so it neither opens the modal nor navigates.
- The empty-state element existing apart from the grid: both are looked up together, and the model treats them as present or absent together.
- A contact page without the form. The handler then returns at once, and nothing is modelled.
- The FormSubmit network submission. The model stops at whether the browser's own submission goes ahead.
- `console.log` calls.

=== FILE: catalog.dfy ===
/** The project catalog: the immutable project record, the two queries the pages run over it
    (category filter and featured subset), lookup by id, and the two catalog literals the
    home page and the projects page ship with. */
module Catalog {
  import opened Wrappers
  import opened Text
  import opened Seqs

  /** One portfolio project. Optional text fields are `None` where the record holds `null` or
      leaves the field out; `category` is the array of lower-case keys the filter matches. */
  datatype Project = Project(
    id: nat,
    title: string,
    description: string,
    longDescription: Option<string>,
    image: Option<string>,
    video: Option<string>,
    tags: seq<string>,
    category: seq<string>,
    github: Option<string>,
    demo: Option<string>,
    featured: bool,
    features: Option<seq<string>>)

  /** JavaScript truthiness of an optional text field: present and not the empty string. */
  predicate Truthy(field: Option<string>) {
    field.Some? && field.value != ""
  }

  /** No two records share an id. */
  ghost predicate UniqueIds(catalog: seq<Project>) {
    forall i, j | 0 <= i < j < |catalog| :: catalog[i].id != catalog[j].id
  }

  /** The data invariants every catalog literal keeps: unique positive ids and a non-empty
      category list of lower-case keys. */
  ghost predicate WellFormed(catalog: seq<Project>) {
    && UniqueIds(catalog)
    && forall i | 0 <= i < |catalog| ::
         && catalog[i].id > 0
         && catalog[i].category != []
         && forall k | 0 <= k < |catalog[i].category| :: HasNoUpper(catalog[i].category[k])
  }

  /** The projects whose `category` array includes `key`, in catalog order (each as often as
      the catalog holds it: `WithCategoryCounts`). */
  function WithCategory(catalog: seq<Project>, key: string): (r: seq<Project>)
    ensures forall i | 0 <= i < |r| :: r[i] in catalog && key in r[i].category
    ensures forall i | 0 <= i < |catalog| && key in catalog[i].category :: catalog[i] in r
    ensures IsSubsequence(r, catalog)
  {
    Select(catalog, Carries(key))
  }

  /** The filter's test for one record: does its `category` array include `key`? */
  function Carries(key: string): Project -> bool {
    (p: Project) => key in p.category
  }

  /** The projects page's filter: `"all"` (compared before lower-casing) shows the whole
      catalog; any other key shows the projects carrying its lower-cased form. */
  function Filtered(catalog: seq<Project>, filter: string): (r: seq<Project>)
    ensures filter == "all" ==> r == catalog
    ensures filter != "all" ==>
              && (forall i | 0 <= i < |r| :: r[i] in catalog && ToLower(filter) in r[i].category)
              && (forall i | 0 <= i < |catalog| && ToLower(filter) in catalog[i].category :: catalog[i] in r)
              && IsSubsequence(r, catalog)
  {
    if filter == "all" then catalog else WithCategory(catalog, ToLower(filter))
  }

  /** A record carrying the key is kept exactly as often as the catalog holds it, and no other
      record is kept at all. */
  lemma WithCategoryCounts(catalog: seq<Project>, key: string)
    ensures forall p :: multiset(WithCategory(catalog, key))[p] == if key in p.category then multiset(catalog)[p] else 0
  {
    SelectCounts(catalog, Carries(key));
  }

  /** The filter shows each record it selects as often as the catalog holds it, and no other
      record: all of them for `"all"`, otherwise those carrying the lower-cased key. */
  lemma FilteredCounts(catalog: seq<Project>, filter: string)
    ensures forall p :: multiset(Filtered(catalog, filter))[p]
                        == if filter == "all" || ToLower(filter) in p.category then multiset(catalog)[p] else 0
  {
    if filter != "all" {
      WithCategoryCounts(catalog, ToLower(filter));
    }
  }

  /** A filter key that no project carries gives an empty list. */
  lemma UnknownFilterIsEmpty(catalog: seq<Project>, filter: string)
    requires filter != "all"
    requires forall i | 0 <= i < |catalog| :: ToLower(filter) !in catalog[i].category
    ensures Filtered(catalog, filter) == []
  {
    SelectNone(catalog, Carries(ToLower(filter)));
  }

  /** Filter keys are matched case-insensitively against lower-case category keys. */
  lemma FilterIgnoresCase(catalog: seq<Project>, filter: string)
    requires filter != "all" && ToLower(filter) != "all"
    ensures Filtered(catalog, filter) == Filtered(catalog, ToLower(filter))
  {
    ToLowerFixesLower(ToLower(filter));
  }

  /** The home page's featured subset: the projects flagged `featured`, in catalog order (each
      as often as the catalog holds it: `FeaturedCounts`). */
  function Featured(catalog: seq<Project>): (r: seq<Project>)
    ensures forall i | 0 <= i < |r| :: r[i] in catalog && r[i].featured
    ensures forall i | 0 <= i < |catalog| && catalog[i].featured :: catalog[i] in r
    ensures IsSubsequence(r, catalog)
  {
    Select(catalog, IsFeatured)
  }

  predicate IsFeatured(p: Project) {
    p.featured
  }

  /** A featured record is shown exactly as often as the catalog holds it, and no other record
      is shown at all. */
  lemma FeaturedCounts(catalog: seq<Project>)
    ensures forall p :: multiset(Featured(catalog))[p] == if p.featured then multiset(catalog)[p] else 0
  {
    SelectCounts(catalog, IsFeatured);
  }

  /** `catalog.find(p => p.id === id)`: the first record with that id, or nothing when the
      parsed id is `NaN` or matches no record. */
  function FindById(catalog: seq<Project>, id: Option<int>): (r: Option<Project>)
    ensures r.None? <==> forall i | 0 <= i < |catalog| :: id != Some(catalog[i].id as int)
    ensures r.Some? ==> exists i :: && 0 <= i < |catalog| && catalog[i] == r.value
                                    && id == Some(catalog[i].id as int)
                                    && forall j | 0 <= j < i :: id != Some(catalog[j].id as int)
  {
    if catalog == [] then None
    else if id == Some(catalog[0].id as int) then Some(catalog[0])
    else
      var r := FindById(catalog[1..], id);
      assert r.Some? ==> exists i :: && 0 <= i < |catalog| && catalog[i] == r.value
                                     && id == Some(catalog[i].id as int)
                                     && forall j | 0 <= j < i :: id != Some(catalog[j].id as int) by {
        if r.Some? {
          var i :| && 0 <= i < |catalog[1..]| && catalog[1..][i] == r.value
                   && id == Some(catalog[1..][i].id as int)
                   && forall j | 0 <= j < i :: id != Some(catalog[1..][j].id as int);
          assert forall j | 0 <= j < i + 1 :: id != Some(catalog[j].id as int) by {
            forall j | 0 <= j < i + 1 ensures id != Some(catalog[j].id as int) {
              if j > 0 { assert catalog[j] == catalog[1..][j - 1]; }
            }
          }
        }
      }
      r
  }

  /** With unique ids, looking up the id of any record finds exactly that record. */
  lemma FindByOwnId(catalog: seq<Project>, i: nat)
    requires UniqueIds(catalog) && i < |catalog|
    ensures FindById(catalog, Some(catalog[i].id as int)) == Some(catalog[i])
  {
    var r := FindById(catalog, Some(catalog[i].id as int));
    var k :| && 0 <= k < |catalog| && catalog[k] == r.value
             && Some(catalog[i].id as int) == Some(catalog[k].id as int)
             && forall j | 0 <= j < k :: Some(catalog[i].id as int) != Some(catalog[j].id as int);
    assert k == i;
  }

  /** The projects page uses the catalog the home page script published when there is one
      (`window.projectsData || [...]`; any array, even an empty one, is truthy), and its own
      literal otherwise. */
  function PageCatalog(published: Option<seq<Project>>): (r: seq<Project>)
    ensures published.Some? ==> r == published.value
    ensures published.None? ==> r == GalleryCatalog
  {
    published.GetOr(GalleryCatalog)
  }

  function Ids(catalog: seq<Project>): (r: seq<nat>)
    ensures |r| == |catalog| && forall i | 0 <= i < |r| :: r[i] == catalog[i].id
  {
    seq(|catalog|, i requires 0 <= i < |catalog| => catalog[i].id)
  }

  /* ---------------- the shipped catalogs ---------------- */

  /** The catalog literal of the home page script. */
  const HomeCatalog: seq<Project> := [
    Project(
      1, "WACCI Marketplace",
      "A comprehensive seed and agricultural marketplace application built with Flutter. Features include product listings, secure payments, and farmer-buyer connections.",
      None, Some("/asserts/pic/WACCI_screenshot.jpg"), None,
      ["Flutter", "Dart", "Mobile", "E-commerce"], ["flutter", "mobile"],
      Some("https://github.com/kpankpa/WACCI"), None, false, None),
    Project(
      2, "FirstBank CMS",
      "Content Management System developed with TypeScript for efficient content organization and management. Features modern UI and robust backend architecture.",
      None, Some("/asserts/pic/CMS.png"), None,
      ["TypeScript", "Web", "CMS", "Full-Stack"], ["typescript", "web"],
      Some("https://github.com/kpankpa/firstbank-CMS"), None, true, None),
    Project(
      3, "Nuts - Open Banking",
      "Contributing to Nuts, an open-source open banking application. Working on implementing secure financial data sharing, API integrations, and compliance with open banking standards.",
      None, None, None,
      ["Open Banking", "API", "Security", "FinTech"], ["web", "typescript"],
      Some("https://github.com/kpankpa/nuts"), None, true, None),
    Project(
      4, "First Pool",
      "A carpooling application designed to facilitate ride-sharing among employees. Features MVP architecture for scalability, real-time ride matching, route optimization, and cost splitting.",
      None, None, Some("/videos/firstpool_tut.mp4"),
      ["Flutter", "MVP", "Mobile", "Ride-sharing"], ["flutter", "mobile"],
      None, None, true, None)
  ]

  /** The catalog literal of the projects page script (used when no catalog was published). */
  const GalleryCatalog: seq<Project> := [
    Project(
      1, "WACCI Marketplace",
      "A comprehensive seed and agricultural marketplace application built with Flutter. Features include product listings, secure payments, and farmer-buyer connections.",
      Some("WACCI Marketplace is a mobile application designed to connect farmers with buyers in the agricultural sector. Built with Flutter and Dart, it provides a seamless platform for trading seeds and agricultural products. The app features a modern UI, real-time updates, secure payment integration, and user authentication."),
      Some("asserts/pic/WACCI_screenshot.jpg"), None,
      ["Flutter", "Dart", "Mobile", "E-commerce"], ["flutter", "mobile"],
      Some("https://github.com/kpankpa/WACCI"), None, false,
      Some(["Product listing and search functionality", "Secure user authentication",
            "Real-time notifications", "Payment gateway integration", "Responsive mobile UI"])),
    Project(
      2, "FirstBank CMS",
      "Content Management System developed with TypeScript for efficient content organization and management. Features modern UI and robust backend architecture.",
      Some("FirstBank CMS is a modern content management system built with TypeScript. It provides a powerful interface for managing digital content with features like version control, user permissions, and a flexible content structure. The system is designed for scalability and ease of use."),
      Some("asserts/pic/CMS.png"), None,
      ["TypeScript", "Web", "CMS", "Full-Stack"], ["typescript", "web"],
      Some("https://github.com/kpankpa/firstbank-CMS"), None, true,
      Some(["Modern TypeScript architecture", "Intuitive content editor", "User role management",
            "Version control system", "RESTful API integration"])),
    Project(
      3, "Nuts - Open Banking",
      "Contributing to Nuts, an open-source open banking application. Working on implementing secure financial data sharing, API integrations, and compliance with open banking standards.",
      Some("Nuts is an open-source infrastructure for digital identity and consent management in healthcare and financial services. As a contributor, I work on implementing secure data sharing protocols, API integrations, and ensuring compliance with open banking standards. The project focuses on decentralized identity management and secure credential exchange."),
      None, None,
      ["Open Banking", "API", "Security", "FinTech"], ["web", "typescript"],
      Some("https://github.com/nuts-foundation"), None, true,
      Some(["Open banking API implementation", "Secure financial data sharing",
            "OAuth 2.0 and OpenID Connect", "Decentralized identity management",
            "Compliance with PSD2 standards"])),
    Project(
      4, "First Pool",
      "A carpooling application designed to facilitate ride-sharing among employees. Features MVP architecture for scalability, real-time ride matching, route optimization, and cost splitting.",
      Some("First Pool is a mobile carpooling application built with Flutter that enables employees to share rides efficiently. The app follows the MVP (Model-View-Presenter) architecture pattern for clean code separation and testability. It includes real-time ride matching algorithms, route optimization using Google Maps API, automated cost calculation and splitting, and a rating system for drivers and passengers."),
      None, Some("videos/firstpool_tut.mp4"),
      ["Flutter", "MVP", "Mobile", "Ride-sharing"], ["flutter", "mobile"],
      None, None, true,
      Some(["MVP architecture pattern", "Real-time ride matching", "Route optimization with Google Maps",
            "Automated cost splitting", "Driver and passenger ratings", "Push notifications for ride updates"]))
  ]

  /** The record-level part of `WellFormed`. */
  ghost predicate RecordWellFormed(p: Project) {
    && p.id > 0
    && p.category != []
    && forall k | 0 <= k < |p.category| :: HasNoUpper(p.category[k])
  }

  lemma WellFormedByRecords(catalog: seq<Project>)
    requires forall i, j | 0 <= i < j < |catalog| :: Ids(catalog)[i] != Ids(catalog)[j]
    requires forall i | 0 <= i < |catalog| :: RecordWellFormed(catalog[i])
    ensures WellFormed(catalog)
  {
    assert forall i | 0 <= i < |catalog| :: Ids(catalog)[i] == catalog[i].id;
  }

  /** Both shipped catalogs keep the catalog invariants. */
  lemma ShippedCatalogsWellFormed()
    ensures WellFormed(HomeCatalog) && WellFormed(GalleryCatalog)
  {
    HomeCategories();
    GalleryCategories();
    ShippedShapeWellFormed(HomeCatalog);
    ShippedShapeWellFormed(GalleryCatalog);
  }

  /** Four records with ids 1 to 4 and the shipped categories keep the catalog invariants. */
  lemma ShippedShapeWellFormed(c: seq<Project>)
    requires Ids(c) == [1, 2, 3, 4] && ShippedCategories(c)
    ensures WellFormed(c)
  {
    var flutter: string, mobile: string, web: string, typescript: string := "flutter", "mobile", "web", "typescript";
    assert HasNoUpper(flutter) && HasNoUpper(mobile) && HasNoUpper(web) && HasNoUpper(typescript);
    assert RecordWellFormed(c[0]) && RecordWellFormed(c[1]) by {
      assert c[0].id == 1 && c[1].id == 2;
    }
    assert RecordWellFormed(c[2]) && RecordWellFormed(c[3]) by {
      assert c[2].id == 3 && c[3].id == 4;
    }
    WellFormedByRecords(c);
  }

  /** The home page features projects 2, 3 and 4, in that order. */
  lemma HomeFeaturedIds()
    ensures Ids(Featured(HomeCatalog)) == [2, 3, 4]
  {
    HomeCategories();
    FeaturedOfShippedShape(HomeCatalog);
  }

  /** Records 1 to 4 of which all but the first are featured: the featured ids are 2, 3, 4. */
  lemma FeaturedOfShippedShape(c: seq<Project>)
    requires Ids(c) == [1, 2, 3, 4]
    requires !c[0].featured && c[1].featured && c[2].featured && c[3].featured
    ensures Ids(Featured(c)) == [2, 3, 4]
  {
    assert c[1].id == 2 && c[2].id == 3 && c[3].id == 4;
    FeaturedOfFour(c);
    assert Ids([c[1], c[2], c[3]]) == [2, 3, 4];
  }

  /** The featured subset of a four-record catalog whose first record alone is not featured. */
  lemma FeaturedOfFour(c: seq<Project>)
    requires |c| == 4 && !c[0].featured && c[1].featured && c[2].featured && c[3].featured
    ensures Featured(c) == [c[1], c[2], c[3]]
  {
    var s01 := [c[0]] + [c[1]];
    var s012 := s01 + [c[2]];
    assert c == s012 + [c[3]];
    assert Select(s01, IsFeatured) == [c[1]] by {
      SelectSingle(c[0], IsFeatured);
      SelectSingle(c[1], IsFeatured);
      SelectConcat([c[0]], [c[1]], IsFeatured);
    }
    assert Select(s012, IsFeatured) == [c[1], c[2]] by {
      SelectSingle(c[2], IsFeatured);
      SelectConcat(s01, [c[2]], IsFeatured);
    }
    assert Select(c, IsFeatured) == [c[1], c[2], c[3]] by {
      SelectSingle(c[3], IsFeatured);
      SelectConcat(s012, [c[3]], IsFeatured);
    }
  }

  /** The ids and categories of the home page's catalog, record by record. */
  lemma HomeCategories()
    ensures Ids(HomeCatalog) == [1, 2, 3, 4]
    ensures !HomeCatalog[0].featured && HomeCatalog[1].featured && HomeCatalog[2].featured && HomeCatalog[3].featured
    ensures ShippedCategories(HomeCatalog)
  {
  }

  /** The ids and categories of the projects page's catalog, record by record. */
  lemma GalleryCategories()
    ensures Ids(GalleryCatalog) == [1, 2, 3, 4]
    ensures ShippedCategories(GalleryCatalog)
  {
  }

  /** Filtering a four-record catalog by a key, spelled out record by record. */
  lemma FilterOfFour(c: seq<Project>, key: string)
    requires |c| == 4 && key != "all" && HasNoUpper(key)
    ensures Filtered(c, key) == (if key in c[0].category then [c[0]] else [])
                                + (if key in c[1].category then [c[1]] else [])
                                + (if key in c[2].category then [c[2]] else [])
                                + (if key in c[3].category then [c[3]] else [])
  {
    ToLowerFixesLower(key);
    var keep := Carries(key);
    assert c == [c[0]] + [c[1]] + [c[2]] + [c[3]];
    SelectConcat([c[0]] + [c[1]] + [c[2]], [c[3]], keep);
    SelectConcat([c[0]] + [c[1]], [c[2]], keep);
    SelectConcat([c[0]], [c[1]], keep);
    SelectSingle(c[0], keep);
    SelectSingle(c[1], keep);
    SelectSingle(c[2], keep);
    SelectSingle(c[3], keep);
  }
  /** The categories both shipped catalogs give their four records. */
  ghost predicate ShippedCategories(c: seq<Project>) {
    && |c| == 4
    && c[0].category == ["flutter", "mobile"] && c[1].category == ["typescript", "web"]
    && c[2].category == ["web", "typescript"] && c[3].category == ["flutter", "mobile"]
  }

  /** Which of the shipped records carry the "mobile" and "web" keys. */
  lemma ShippedMembership(c: seq<Project>)
    requires ShippedCategories(c)
    ensures HasNoUpper("mobile") && HasNoUpper("web")
    ensures "mobile" in c[0].category && "mobile" !in c[1].category
    ensures "mobile" !in c[2].category && "mobile" in c[3].category
    ensures "web" !in c[0].category && "web" in c[1].category
    ensures "web" in c[2].category && "web" !in c[3].category
  {
  }

  /** With the shipped categories, "mobile" selects the first and last record. */
  lemma MobileOfShippedShape(c: seq<Project>)
    requires ShippedCategories(c)
    ensures Filtered(c, "mobile") == [c[0], c[3]]
  {
    ShippedMembership(c);
    FilterOfFour(c, "mobile");
    assert [c[0]] + [] + [] + [c[3]] == [c[0], c[3]];
  }

  /** With the shipped categories, "web" selects the middle two records. */
  lemma WebOfShippedShape(c: seq<Project>)
    requires ShippedCategories(c)
    ensures Filtered(c, "web") == [c[1], c[2]]
  {
    ShippedMembership(c);
    FilterOfFour(c, "web");
    assert [] + [c[1]] + [c[2]] + [] == [c[1], c[2]];
  }

  /** The example of the filter's contract on the projects page's own catalog: "mobile" gives
      projects 1 and 4, "web" gives 2 and 3, each in catalog order. */
  lemma GalleryFilterExamples()
    ensures Ids(Filtered(GalleryCatalog, "mobile")) == [1, 4]
    ensures Ids(Filtered(GalleryCatalog, "web")) == [2, 3]
  {
    GalleryCategories();
    ShippedShapeFilters(GalleryCatalog);
  }

  lemma ShippedShapeFilters(c: seq<Project>)
    requires Ids(c) == [1, 2, 3, 4] && ShippedCategories(c)
    ensures Ids(Filtered(c, "mobile")) == [1, 4]
    ensures Ids(Filtered(c, "web")) == [2, 3]
  {
    assert c[0].id == 1 && c[1].id == 2 && c[2].id == 3 && c[3].id == 4;
    MobileOfShippedShape(c);
    WebOfShippedShape(c);
    assert Ids([c[0], c[3]]) == [1, 4];
    assert Ids([c[1], c[2]]) == [2, 3];
  }
}

=== FILE: contact.dfy ===
/** The contact form: four fields, each with a validator run on its trimmed value, a per-field
    error state (the form group's `error` class, the error text, the input's `aria-invalid`),
    validation on blur, error clearing on input, and a submit handler that lets the browser's
    submission go ahead only when all four validators pass. */
module Contact {
  import opened Text
  import opened EmailPattern
  import Utf16

  datatype Field = Name | Email | Subject | Message

  /** One value per field. */
  datatype Fields<T> = Fields(name: T, email: T, subject: T, message: T) {

    function Get(f: Field): T {
      match f
      case Name => name
      case Email => email
      case Subject => subject
      case Message => message
    }

    /** The same values with field `f`'s replaced by `v`. */
    function Set(f: Field, v: T): (r: Fields<T>)
      ensures r.Get(f) == v
      ensures forall g: Field | g != f :: r.Get(g) == Get(g)
    {
      match f
      case Name => this.(name := v)
      case Email => this.(email := v)
      case Subject => this.(subject := v)
      case Message => this.(message := v)
    }
  }

  /** The error state of one field: the form group's `error` class, the text of its error
      element and the input's `aria-invalid="true"`. */
  datatype FieldUi = FieldUi(errorClass: bool, errorText: string, ariaInvalid: bool)

  /** The submit button: the text of its label (`caption`) and whether it is disabled. */
  datatype Button = Button(caption: string, disabled: bool)

  datatype Form = Form(values: Fields<string>, ui: Fields<FieldUi>, button: Button)

  /** The outcome of the submit handler: the form afterwards, and whether the browser's own
      submission goes ahead (the default action was not prevented). */
  datatype Submission = Submission(form: Form, sent: bool)

  /** `clearFieldError`: no class, no text, no `aria-invalid`. */
  const NoError: FieldUi := FieldUi(false, "", false)

  /** The button's label and state once a valid form is on its way. */
  const Sending: Button := Button("Sending...", true)

  /** `showError(field, message)`: class added, text set, `aria-invalid` set. */
  function ShowError(message: string): (r: FieldUi)
    ensures r.errorClass && r.ariaInvalid && r.errorText == message
  {
    FieldUi(true, message, true)
  }

  /** The smallest trimmed length the length-checked fields accept. */
  function MinLength(f: Field): nat {
    match f
    case Name => 2
    case Subject => 3
    case Message => 10
    case Email => 0
  }

  function ErrorMessage(f: Field): string {
    match f
    case Name => "Name must be at least 2 characters long"
    case Email => "Please enter a valid email address"
    case Subject => "Subject must be at least 3 characters long"
    case Message => "Message must be at least 10 characters long"
  }

  /** The validator of field `f` on the raw input value `v`: the e-mail field's trimmed value
      must match the e-mail pattern; each other field's trimmed value must have at least its
      minimum JavaScript length, which counts UTF-16 code units, so that a character above
      U+FFFF counts twice. A blank value never passes, enough characters always do, and fewer
      than half the minimum never do. */
  function Accepts(f: Field, v: string): (ok: bool)
    ensures ok ==> Trim(v) != []
    ensures f != Email && |Trim(v)| >= MinLength(f) ==> ok
    ensures f != Email && 2 * |Trim(v)| < MinLength(f) ==> !ok
  {
    if f == Email then IsValidEmail(Trim(v)) else Utf16.Length(Trim(v)) >= MinLength(f)
  }

  /** On text whose trimmed value lies below U+10000, as typed names, subjects and messages
      usually do, the name, subject and message fields pass exactly when the trimmed value
      has at least 2, 3 and 10 characters respectively. */
  lemma AcceptsLength(f: Field, v: string)
    requires f != Email && forall i | 0 <= i < |Trim(v)| :: Trim(v)[i] as int < 0x1_0000
    ensures Accepts(f, v) <==> |Trim(v)| >= MinLength(f)
  {
    Utf16.BmpLength(Trim(v));
  }

  /** One emoji is a long enough name, as its JavaScript length is 2; one letter is not. */
  lemma EmojiNameAccepted()
    ensures Accepts(Name, "\U{1F600}") && !Accepts(Name, "a")
  {
    TrimFixesTrimmed("\U{1F600}");
    TrimFixesTrimmed("a");
    Utf16.EmojiCountsTwice();
  }

  /** The error state a validator leaves on its field: cleared on success, the field's message
      on failure. */
  function Verdict(f: Field, v: string): (r: FieldUi)
    ensures r.errorClass <==> !Accepts(f, v)
    ensures r.ariaInvalid <==> !Accepts(f, v)
    ensures r.errorText != [] <==> !Accepts(f, v)
    ensures !Accepts(f, v) ==> r.errorText == ErrorMessage(f)
  {
    if Accepts(f, v) then NoError else ShowError(ErrorMessage(f))
  }

  /** `validateName` / `validateEmail` / `validateSubject` / `validateMessage`, also the blur
      handlers: returns whether field `f` passes, and sets its error state accordingly. The
      values, the button and every other field's error state are untouched. */
  function Validate(form: Form, f: Field): (r: (Form, bool))
    ensures r.1 <==> Accepts(f, form.values.Get(f))
    ensures r.0.ui.Get(f).errorClass <==> !r.1
    ensures r.0.ui.Get(f).ariaInvalid <==> !r.1
    ensures r.1 ==> r.0.ui.Get(f).errorText == []
    ensures !r.1 ==> r.0.ui.Get(f).errorText == ErrorMessage(f)
    ensures r.0.values == form.values && r.0.button == form.button
    ensures forall g: Field | g != f :: r.0.ui.Get(g) == form.ui.Get(g)
  {
    var v := form.values.Get(f);
    (form.(ui := form.ui.Set(f, Verdict(f, v))), Accepts(f, v))
  }

  /** The `input` handler of field `f`, the field now holding `v`: the form group loses its
      `error` class and the error text is emptied. The input's `aria-invalid` stays as it
      was, and no other field's error state changes. */
  function Input(form: Form, f: Field, v: string): (r: Form)
    ensures r.values.Get(f) == v
    ensures forall g: Field | g != f :: r.values.Get(g) == form.values.Get(g)
    ensures !r.ui.Get(f).errorClass && r.ui.Get(f).errorText == []
    ensures r.ui.Get(f).ariaInvalid == form.ui.Get(f).ariaInvalid
    ensures forall g: Field | g != f :: r.ui.Get(g) == form.ui.Get(g)
    ensures r.button == form.button
  {
    var ui := form.ui.Get(f);
    Form(form.values.Set(f, v), form.ui.Set(f, ui.(errorClass := false, errorText := [])), form.button)
  }

  /** All four validators pass on the form's values. */
  predicate AllAccepted(values: Fields<string>) {
    forall f: Field :: Accepts(f, values.Get(f))
  }

  /** The submit handler: all four validators run, in order and without stopping at the first
      failure, so every field shows its own verdict. The submission goes ahead exactly when all
      four pass; then the button is disabled and reads "Sending...". Otherwise the default
      action is prevented and the button is left alone. */
  function Submit(form: Form): (r: Submission)
    ensures r.sent <==> AllAccepted(form.values)
    ensures forall f: Field :: r.form.ui.Get(f) == Verdict(f, form.values.Get(f))
    ensures r.form.values == form.values
    ensures r.sent ==> r.form.button == Sending
    ensures !r.sent ==> r.form.button == form.button
  {
    var name := Validate(form, Name);
    var email := Validate(name.0, Email);
    var subject := Validate(email.0, Subject);
    var message := Validate(subject.0, Message);
    var f4 := message.0;
    var ok := name.1 && email.1 && subject.1 && message.1;
    assert forall f: Field :: f4.ui.Get(f) == Verdict(f, form.values.Get(f)) && (ok ==> Accepts(f, form.values.Get(f))) by {
      forall f: Field
        ensures f4.ui.Get(f) == Verdict(f, form.values.Get(f)) && (ok ==> Accepts(f, form.values.Get(f)))
      {
        if f == Name {
        } else if f == Email {
        } else if f == Subject {
        } else {
        }
      }
    }
    if ok then Submission(f4.(button := Sending), true) else Submission(f4, false)
  }

  /* ---------------- properties ---------------- */

  /** Running a validator twice is running it once. */
  lemma ValidateIdempotent(form: Form, f: Field)
    ensures Validate(Validate(form, f).0, f) == Validate(form, f)
  {
    var once := Validate(form, f).0;
    assert once.ui.Set(f, once.ui.Get(f)) == once.ui by {
      if f == Name {
      } else if f == Email {
      } else if f == Subject {
      } else {
      }
    }
  }

  /** Whether the submission goes ahead, and the error state it leaves, depend only on the
      values: not on the error state shown before. */
  lemma SubmitIgnoresShownErrors(form: Form, ui: Fields<FieldUi>)
    ensures Submit(form.(ui := ui)).sent == Submit(form).sent
    ensures Submit(form.(ui := ui)).form.ui == Submit(form).form.ui
  {
    var a, b := Submit(form.(ui := ui)).form.ui, Submit(form).form.ui;
    assert a.Get(Name) == b.Get(Name) && a.Get(Email) == b.Get(Email);
    assert a.Get(Subject) == b.Get(Subject) && a.Get(Message) == b.Get(Message);
  }

  /** Typing into a field and leaving it shows the verdict on what was typed, whatever the
      field showed before. */
  lemma InputThenBlur(form: Form, f: Field, v: string)
    ensures Validate(Input(form, f, v), f).0.ui.Get(f) == Verdict(f, v)
    ensures Validate(Input(form, f, v), f).1 <==> Accepts(f, v)
  {
  }

  /** A refused submission (some validator fails) marks at least one field, and exactly the
      failing ones. */
  lemma RefusedSubmitMarksFailures(form: Form)
    requires !AllAccepted(form.values)
    ensures exists f: Field :: Submit(form).form.ui.Get(f).errorClass
    ensures forall f: Field :: Submit(form).form.ui.Get(f).errorClass <==> !Accepts(f, form.values.Get(f))
  {
    var f :| !Accepts(f, form.values.Get(f));
    assert Submit(form).form.ui.Get(f).errorClass;
  }

  /** Surrounding white space does not count: a value is accepted exactly when its trimmed
      form is. */
  lemma AcceptsTrimmed(f: Field, v: string)
    ensures Accepts(f, v) <==> Accepts(f, Trim(v))
  {
    var t := Trim(v);
    TrimFixesTrimmed(t);
    assert Trim(t) == t;
    if f == Email {
      assert Accepts(f, v) == IsValidEmail(t);
      assert Accepts(f, t) == IsValidEmail(t);
    }
  }

  /** The e-mail validator is `isValidEmail` on the trimmed value, which is the regular
      expression `^[^\s@]+@[^\s@]+\.[^\s@]+$`. */
  lemma EmailFieldUsesPattern(v: string)
    ensures Accepts(Email, v) <==> MatchesPattern(Trim(v))
  {
    EmailPatternAgrees(Trim(v));
  }
}

=== FILE: email_pattern.dfy ===
/** The e-mail check shared by `isValidEmail` and the contact form: the regular expression
    `^[^\s@]+@[^\s@]+\.[^\s@]+$`, stated once as the pattern reads and once as an explicit
    character-level test, and proved to agree. */
module EmailPattern {
  import opened Text

  /** A character of the class `[^\s@]`. */
  predicate PlainChar(c: char) {
    !IsSpace(c) && c != '@'
  }

  /** A non-empty run of `[^\s@]`, that is, `[^\s@]+`. */
  ghost predicate PlainRun(s: string) {
    s != [] && forall k | 0 <= k < |s| :: PlainChar(s[k])
  }

  /** The regular expression read directly: `s` splits as `local @ host . tld`, each part a
      non-empty run of `[^\s@]`. The `@` is at `at`, the chosen `.` at `dot`. */
  ghost predicate MatchesAt(s: string, at: int, dot: int) {
    && 0 < at < dot < |s|
    && s[at] == '@' && s[dot] == '.'
    && PlainRun(s[..at]) && PlainRun(s[at + 1..dot]) && PlainRun(s[dot + 1..])
  }

  ghost predicate MatchesPattern(s: string) {
    exists at, dot :: MatchesAt(s, at, dot)
  }

  /** `isValidEmail`, character by character: no white space anywhere, exactly one `@`, not
      first, and after it a `.` that is neither the first nor the last character of the
      domain. */
  predicate IsValidEmail(s: string) {
    && (forall k | 0 <= k < |s| :: !IsSpace(s[k]))
    && exists at | 0 < at < |s| ::
         && s[at] == '@'
         && (forall k | 0 <= k < |s| && k != at :: s[k] != '@')
         && exists dot | at + 1 < dot < |s| - 1 :: s[dot] == '.'
  }

  /** The explicit test accepts exactly the strings the regular expression matches. */
  lemma EmailPatternAgrees(s: string)
    ensures IsValidEmail(s) <==> MatchesPattern(s)
  {
    if IsValidEmail(s) {
      var at :| && 0 < at < |s| && s[at] == '@'
                && (forall k | 0 <= k < |s| && k != at :: s[k] != '@')
                && exists dot | at + 1 < dot < |s| - 1 :: s[dot] == '.';
      var dot :| at + 1 < dot < |s| - 1 && s[dot] == '.';
      var local, host, tld := s[..at], s[at + 1..dot], s[dot + 1..];
      assert PlainRun(local) by {
        forall k | 0 <= k < |local| ensures PlainChar(local[k]) { assert local[k] == s[k]; }
      }
      assert PlainRun(host) by {
        forall k | 0 <= k < |host| ensures PlainChar(host[k]) { assert host[k] == s[at + 1 + k]; }
      }
      assert PlainRun(tld) by {
        forall k | 0 <= k < |tld| ensures PlainChar(tld[k]) { assert tld[k] == s[dot + 1 + k]; }
      }
      assert MatchesAt(s, at, dot);
    }
    if MatchesPattern(s) {
      var at, dot :| MatchesAt(s, at, dot);
      forall k | 0 <= k < |s| && k != at && k != dot
        ensures PlainChar(s[k])
      {
        if k < at {
          assert s[k] == s[..at][k];
        } else if k < dot {
          assert s[k] == s[at + 1..dot][k - at - 1];
        } else {
          assert s[k] == s[dot + 1..][k - dot - 1];
        }
      }
      assert '.' != '@' && !IsSpace('.') && !IsSpace('@');
      assert at + 1 < dot < |s| - 1 by {
        assert |s[at + 1..dot]| > 0 && |s[dot + 1..]| > 0;
      }
    }
  }
}

=== FILE: expiry_store.dfy ===
/** `setWithExpiry` / `getWithExpiry`: a key/value store (the browser's local storage) whose
    entries carry an absolute expiry time. The clock reading of each call is a parameter, and
    the store is a map from keys to stored items. */
module ExpiryStore {
  import opened Wrappers

  /** What is stored under a key: the value and the time (in milliseconds) after which it has
      expired. */
  datatype Item<V> = Item(value: V, expiry: int)

  type Store<V> = map<string, Item<V>>

  /** `setWithExpiry(key, value, ttl)` at time `now`: stores `value` under `key`, expiring
      `ttl` milliseconds from now, replacing whatever was there. No other key is affected. */
  function Set<V>(store: Store<V>, key: string, value: V, ttl: int, now: int): (r: Store<V>)
    ensures key in r && r[key].value == value && r[key].expiry == now + ttl
    ensures r.Keys == store.Keys + {key}
    ensures forall k | k in store && k != key :: r[k] == store[k]
  {
    store[key := Item(value, now + ttl)]
  }

  /** Whether the item under `key` has expired at time `now`: it expires strictly after its
      expiry time, so a read at exactly that time still succeeds. */
  predicate Expired<V>(store: Store<V>, key: string, now: int)
    requires key in store
  {
    now > store[key].expiry
  }

  /** `getWithExpiry(key)` at time `now`: a missing key gives `null` (`None`); an expired item is
      removed and gives `null`; a live item gives its value and leaves the store as it was. */
  function Get<V>(store: Store<V>, key: string, now: int): (r: (Store<V>, Option<V>))
    ensures key !in store ==> r == (store, None)
    ensures key in store && Expired(store, key, now) ==> r.1 == None && r.0.Keys == store.Keys - {key}
    ensures key in store && !Expired(store, key, now) ==> r == (store, Some(store[key].value))
    ensures forall k | k in r.0 :: k in store && r.0[k] == store[k]
  {
    if key !in store then (store, None)
    else if now > store[key].expiry then (store - {key}, None)
    else (store, Some(store[key].value))
  }

  /** After `setWithExpiry(key, value, ttl)` at `t0`, a read of `key` at `t` returns `value`
      exactly when `t <= t0 + ttl`; a later read removes the key. */
  lemma SetThenGet<V>(store: Store<V>, key: string, value: V, ttl: int, t0: int, t: int)
    ensures var r := Get(Set(store, key, value, ttl, t0), key, t);
            && (r.1 == Some(value) <==> t <= t0 + ttl)
            && (r.1.None? <==> t > t0 + ttl)
            && (t > t0 + ttl ==> key !in r.0)
  {
  }

  /** Writing `key` does not change what a read of any other key returns. */
  lemma SetKeepsOtherKeys<V>(store: Store<V>, key: string, value: V, ttl: int, t0: int, other: string, t: int)
    requires other != key
    ensures Get(Set(store, key, value, ttl, t0), other, t).1 == Get(store, other, t).1
  {
  }

  /** A value is readable on an initial stretch of time: a read that succeeds at `t` also
      succeeds, with the same value, at any earlier `t'`, and a read that fails at `t` also
      fails at any later time. */
  lemma ReadableUntilExpiry<V>(store: Store<V>, key: string, t: int, t': int)
    requires t' <= t
    ensures Get(store, key, t).1.Some? ==> Get(store, key, t') == Get(store, key, t)
    ensures Get(store, key, t').1.None? ==> Get(store, key, t).1.None?
  {
  }

  /** Once a read has found the item expired, every later read of the key gives `null`,
      whatever the time. */
  lemma ExpiredStaysGone<V>(store: Store<V>, key: string, now: int, later: int)
    requires key in store && Expired(store, key, now)
    ensures var s := Get(store, key, now).0;
            key !in s && Get(s, key, later) == (s, None)
  {
  }
}

=== FILE: gallery.dfy ===
/** The projects page: the current filter, the project grid with its empty-state message, and
    the detail modal, driven by filter clicks, card clicks, the close controls, the Escape key
    and the deep link (`?id=`) read at load time. The page elements the script looks up are a
    parameter (`Dom`): each may be missing from the markup. */
module Gallery {
  import opened Wrappers
  import opened Text
  import opened Catalog
  import opened Render

  /** Which of the looked-up elements exist: the grid (with its empty-state element), the
      modal, its body, its overlay and its close button. */
  datatype Dom = Dom(grid: bool, modal: bool, modalBody: bool, overlay: bool, closeButton: bool)

  /** The empty-state element's `display` style: untouched, `block`, or `none`. */
  datatype Display = Unset | Shown | Hidden

  /** The modal: whether it carries the `active` class, and what its body last received. The
      body is kept when the modal closes; only the next opening replaces it. */
  datatype Modal = Modal(active: bool, content: Option<Detail>)

  /** The page: filter key, rendered cards, empty-state display, modal, and whether the page
      body's scrolling is suppressed (`overflow: hidden`). */
  datatype Page = Page(filter: string, grid: seq<Card>, emptyState: Display, modal: Modal, scrollLocked: bool)

  datatype Event =
    | FilterClick(key: string)   // a filter button with this `data-filter` value
    | CardClick(index: nat)      // the card at this position in the grid
    | OverlayClick
    | CloseClick
    | KeyDown(key: string)

  /** The page before the load handler runs. */
  const Initial: Page := Page("all", [], Unset, Modal(false, None), false)

  /** `openProjectModal` does nothing unless the modal and its body exist. */
  predicate CanOpen(dom: Dom) {
    dom.modal && dom.modalBody
  }

  /** The overlay, close-button and Escape listeners are attached only when the modal, the
      overlay and the close button all exist. */
  predicate ModalListening(dom: Dom) {
    dom.modal && dom.overlay && dom.closeButton
  }

  /** The grid shows exactly one card per project of the current filter, in order; the empty
      state is shown exactly when that list is empty. */
  ghost predicate GridShows(catalog: seq<Project>, page: Page) {
    var shown := Filtered(catalog, page.filter);
    && page.grid == GalleryCards(shown)
    && (shown == [] <==> page.emptyState == Shown)
    && (shown != [] <==> page.emptyState == Hidden)
  }

  /** The modal is active exactly while page scrolling is suppressed, and an active modal
      always has content. */
  ghost predicate ModalConsistent(page: Page) {
    && (page.modal.active <==> page.scrollLocked)
    && (page.modal.active ==> page.modal.content.Some?)
  }

  /** `filterProjects`: re-render the grid for the current filter. An empty result clears the
      grid and shows the empty state; otherwise the empty state is hidden and there is one
      card per result, in order. Nothing else on the page changes. */
  function RenderGrid(catalog: seq<Project>, page: Page): (r: Page)
    ensures GridShows(catalog, r)
    ensures r.filter == page.filter && r.modal == page.modal && r.scrollLocked == page.scrollLocked
  {
    var shown := Filtered(catalog, page.filter);
    if |shown| == 0 then page.(grid := [], emptyState := Shown)
    else page.(emptyState := Hidden, grid := GalleryCards(shown))
  }

  /** `openProjectModal`: when the modal exists, its body is wholly replaced by the project's
      detail view, it becomes active and page scrolling is suppressed. Grid and filter are
      untouched. */
  function Open(dom: Dom, page: Page, p: Project): (r: Page)
    ensures CanOpen(dom) ==> r.modal == Modal(true, Some(DetailFor(p))) && r.scrollLocked
    ensures !CanOpen(dom) ==> r == page
    ensures r.filter == page.filter && r.grid == page.grid && r.emptyState == page.emptyState
  {
    if CanOpen(dom) then page.(modal := Modal(true, Some(DetailFor(p))), scrollLocked := true)
    else page
  }

  /** `closeProjectModal`: the modal loses `active` and page scrolling is restored; its body
      content stays as it was. */
  function Close(page: Page): (r: Page)
    ensures !r.modal.active && !r.scrollLocked
    ensures r.modal.content == page.modal.content
    ensures r.filter == page.filter && r.grid == page.grid && r.emptyState == page.emptyState
  {
    page.(modal := page.modal.(active := false), scrollLocked := false)
  }

  /** The project a card click resolves to: the card's `data-project-id` is parsed and looked
      up; a missing card, an unparsable id or an unknown id resolve to nothing. */
  function ClickTarget(catalog: seq<Project>, grid: seq<Card>, index: nat): (r: Option<Project>)
    ensures r.Some? ==> index < |grid| && r.value in catalog
                        && ParseInt(grid[index].dataId) == Some(r.value.id as int)
    ensures index < |grid| && (exists k | 0 <= k < |catalog| :: ParseInt(grid[index].dataId) == Some(catalog[k].id as int))
            ==> r.Some?
  {
    if index < |grid| then FindById(catalog, ParseInt(grid[index].dataId)) else None
  }

  /** The project the deep link opens: only a non-empty `id` value whose parse matches a
      catalog record selects one. */
  function DeepLinkTarget(catalog: seq<Project>, idParam: Option<string>): (r: Option<Project>)
    ensures r.Some? ==> && idParam.Some? && idParam.value != "" && r.value in catalog
                        && ParseInt(idParam.value) == Some(r.value.id as int)
    ensures Truthy(idParam) && (exists k | 0 <= k < |catalog| :: ParseInt(idParam.value) == Some(catalog[k].id as int))
            ==> r.Some?
  {
    if Truthy(idParam) then FindById(catalog, ParseInt(idParam.value)) else None
  }

  /** `loadProjects`: without a grid nothing happens. Otherwise the grid is rendered for the
      current filter, and the project named by the deep link, if any, is returned: the timer
      that fires shortly after load opens it with `Open`. */
  function Load(catalog: seq<Project>, dom: Dom, page: Page, idParam: Option<string>): (r: (Page, Option<Project>))
    ensures !dom.grid ==> r == (page, None)
    ensures dom.grid ==> GridShows(catalog, r.0) && r.0 == RenderGrid(catalog, page)
    ensures dom.grid ==> r.1 == DeepLinkTarget(catalog, idParam)
  {
    if !dom.grid then (page, None)
    else (RenderGrid(catalog, page), DeepLinkTarget(catalog, idParam))
  }

  /** One event on the loaded page. */
  function Step(catalog: seq<Project>, dom: Dom, page: Page, e: Event): (r: Page)
    ensures e.FilterClick? && dom.grid ==> r == RenderGrid(catalog, page.(filter := e.key))
    ensures e.FilterClick? ==> r.filter == e.key && r.modal == page.modal
    ensures e.CardClick? && ClickTarget(catalog, page.grid, e.index).None? ==> r == page
    ensures e.CardClick? && ClickTarget(catalog, page.grid, e.index).Some? ==>
              r == Open(dom, page, ClickTarget(catalog, page.grid, e.index).value)
    ensures (e.OverlayClick? || e.CloseClick?) ==> r == (if ModalListening(dom) then Close(page) else page)
    ensures e.KeyDown? && !(e.key == "Escape" && page.modal.active && ModalListening(dom)) ==> r == page
    ensures e.KeyDown? && e.key == "Escape" && page.modal.active && ModalListening(dom) ==> r == Close(page)
  {
    match e
    case FilterClick(key) =>
      // Without a grid the handler stops with a TypeError right after storing the key.
      if dom.grid then RenderGrid(catalog, page.(filter := key)) else page.(filter := key)
    case CardClick(index) =>
      var target := ClickTarget(catalog, page.grid, index);
      if target.Some? then Open(dom, page, target.value) else page
    case OverlayClick => if ModalListening(dom) then Close(page) else page
    case CloseClick => if ModalListening(dom) then Close(page) else page
    case KeyDown(key) =>
      if key == "Escape" && page.modal.active && ModalListening(dom) then Close(page) else page
  }

  /* ---------------- properties ---------------- */

  /** Opening B after A, without closing in between, leaves exactly the state of opening B
      alone: one active modal, B's content, nothing of A's. */
  lemma OpenReplaces(dom: Dom, page: Page, a: Project, b: Project)
    ensures Open(dom, Open(dom, page, a), b) == Open(dom, page, b)
  {
  }

  /** Closing twice is closing once; Escape on a closed modal changes nothing. */
  lemma CloseIdempotent(catalog: seq<Project>, dom: Dom, page: Page)
    ensures Close(Close(page)) == Close(page)
    ensures Step(catalog, dom, Close(page), KeyDown("Escape")) == Close(page)
  {
  }

  /** Every event keeps the modal consistent with the page's scroll lock. */
  lemma StepKeepsModalConsistent(catalog: seq<Project>, dom: Dom, page: Page, e: Event)
    requires ModalConsistent(page)
    ensures ModalConsistent(Step(catalog, dom, page, e))
  {
  }

  /** On a page with a grid, every event keeps the grid in step with the current filter. */
  lemma StepKeepsGridShowing(catalog: seq<Project>, dom: Dom, page: Page, e: Event)
    requires dom.grid && GridShows(catalog, page)
    ensures GridShows(catalog, Step(catalog, dom, page, e))
  {
  }

  /** Clicking the card at position `i` of a grid that shows the current filter opens the
      detail view of the `i`-th filtered project (ids being unique, the id written into the
      card finds that very record). */
  lemma ClickOpensThatCard(catalog: seq<Project>, dom: Dom, page: Page, i: nat)
    requires UniqueIds(catalog) && GridShows(catalog, page)
    requires i < |page.grid|
    ensures Step(catalog, dom, page, CardClick(i)) == Open(dom, page, Filtered(catalog, page.filter)[i])
  {
    var shown := Filtered(catalog, page.filter);
    var p := shown[i];
    assert page.grid[i] == GalleryCard(p);
    assert p in catalog;
    var k :| 0 <= k < |catalog| && catalog[k] == p;
    FindByOwnId(catalog, k);
  }

  /** A deep link carrying a record's id, written as `${id}` writes it, opens that record. */
  lemma DeepLinkOpensRecord(catalog: seq<Project>, k: nat)
    requires UniqueIds(catalog) && k < |catalog|
    ensures DeepLinkTarget(catalog, Some(NatToString(catalog[k].id))) == Some(catalog[k])
  {
    ParseIntOfDecimal(catalog[k].id);
    FindByOwnId(catalog, k);
  }

  /** A deep link whose value names no record, or does not parse, opens nothing. */
  lemma UnknownDeepLinkOpensNothing(catalog: seq<Project>, idParam: string)
    requires forall k | 0 <= k < |catalog| :: ParseInt(idParam) != Some(catalog[k].id as int)
    ensures DeepLinkTarget(catalog, Some(idParam)) == None
  {
  }

  /** Loading the page over its initial state leaves a page whose grid shows the "all" filter,
      that is, the whole catalog in order, and whose modal is closed and consistent. */
  lemma LoadShowsWholeCatalog(catalog: seq<Project>, dom: Dom, idParam: Option<string>)
    requires dom.grid
    ensures var page := Load(catalog, dom, Initial, idParam).0;
            && GridShows(catalog, page) && page.grid == GalleryCards(catalog)
            && ModalConsistent(page) && !page.modal.active
  {
  }
}

=== FILE: home.dfy ===
/** The home page's featured-projects grid: the featured subset rendered as cards, and a card
    click that navigates to the projects page with the project's id in the address. */
module Home {
  import opened Wrappers
  import opened Text
  import opened Catalog
  import opened Render
  import Gallery

  /** The address a card click navigates to for project id `id`: the projects page, with a
      query whose `id` value parses back to `id`. */
  function ProjectAddress(id: nat): (r: string)
    ensures |r| > |AddressStem| && r[..|AddressStem|] == AddressStem
    ensures ParseInt(r[|AddressStem|..]) == Some(id as int)
  {
    var digits := NatToString(id);
    ParseIntOfDecimal(id);
    assert (AddressStem + digits)[|AddressStem|..] == digits;
    AddressStem + digits
  }

  /** The projects page's path followed by the start of its `id` parameter. */
  const AddressStem: string := "/projects/?id="

  /** Random gradient picks, one per featured card, each below the palette size. */
  ghost predicate ValidPicks(catalog: seq<Project>, picks: seq<nat>) {
    |picks| == |Featured(catalog)| && forall i | 0 <= i < |picks| :: picks[i] < HomePaletteSize
  }

  /** `loadFeaturedProjects`: without the grid element nothing is rendered (and no card
      listeners exist); otherwise one card per featured project, in catalog order. */
  function FeaturedGrid(catalog: seq<Project>, hasGrid: bool, picks: seq<nat>): (r: Option<seq<Card>>)
    requires ValidPicks(catalog, picks)
    ensures r.None? <==> !hasGrid
    ensures r.Some? ==> |r.value| == |Featured(catalog)|
    ensures r.Some? ==> forall i | 0 <= i < |r.value| :: r.value[i] == HomeCard(Featured(catalog)[i], picks[i])
  {
    if !hasGrid then None
    else
      var featured := Featured(catalog);
      Some(seq(|featured|, i requires 0 <= i < |featured| => HomeCard(featured[i], picks[i])))
  }

  /** A click on the card at `index`: its id is parsed and looked up in the catalog, and only
      a found project leads to navigation, to the address built from the parsed id. With no
      grid there are no cards and so no navigation. */
  function Navigate(catalog: seq<Project>, grid: Option<seq<Card>>, index: nat): (r: Option<string>)
    ensures r.Some? <==> grid.Some? && Gallery.ClickTarget(catalog, grid.value, index).Some?
    ensures r.Some? ==> r.value == ProjectAddress(Gallery.ClickTarget(catalog, grid.value, index).value.id)
  {
    if grid.None? then None
    else
      match Gallery.ClickTarget(catalog, grid.value, index)
      case Some(p) => Some(ProjectAddress(p.id))
      case None => None
  }

  /** Clicking the `i`-th featured card of the home catalog `h` navigates to the address of
      the `i`-th featured project. The projects page then looks that id up in its own catalog
      `g` (see `Catalog.PageCatalog`), which need not be `h`: with unique ids in `g` the deep
      link opens the record of `g` carrying that id, and with no such record it opens nothing. */
  lemma NavigationReachesProject(h: seq<Project>, g: seq<Project>, picks: seq<nat>, i: nat)
    requires ValidPicks(h, picks) && i < |Featured(h)|
    requires UniqueIds(g)
    ensures var p := Featured(h)[i];
            Navigate(h, FeaturedGrid(h, true, picks), i) == Some(ProjectAddress(p.id))
    ensures var p := Featured(h)[i];
            forall k | 0 <= k < |g| && g[k].id == p.id :: Gallery.DeepLinkTarget(g, Some(NatToString(p.id))) == Some(g[k])
    ensures var p := Featured(h)[i];
            (forall k | 0 <= k < |g| :: g[k].id != p.id) ==> Gallery.DeepLinkTarget(g, Some(NatToString(p.id))) == None
  {
    var p := Featured(h)[i];
    var grid := FeaturedGrid(h, true, picks).value;
    assert grid[i] == HomeCard(p, picks[i]);
    assert p in h;
    var j :| 0 <= j < |h| && h[j] == p;
    assert ParseInt(grid[i].dataId) == Some(h[j].id as int);
    forall k | 0 <= k < |g| && g[k].id == p.id
      ensures Gallery.DeepLinkTarget(g, Some(NatToString(p.id))) == Some(g[k])
    {
      Gallery.DeepLinkOpensRecord(g, k);
    }
    if forall k | 0 <= k < |g| :: g[k].id != p.id {
      ParseIntOfDecimal(p.id);
      Gallery.UnknownDeepLinkOpensNothing(g, NatToString(p.id));
    }
  }

  /** The home page's `window.projectsData` does not survive navigation to the projects page,
      a separate document; unless that page publishes a catalog itself it uses its own
      literal. The featured home card at `i` (project `i + 2`, one of 2, 3 and 4) navigates to
      that id's address, whose deep link opens the literal's record with that id. */
  lemma ShippedNavigation(picks: seq<nat>, i: nat)
    requires ValidPicks(HomeCatalog, picks) && i < 3
    ensures var id := i + 2;
            && Navigate(HomeCatalog, FeaturedGrid(HomeCatalog, true, picks), i) == Some(ProjectAddress(id))
            && Gallery.DeepLinkTarget(PageCatalog(None), Some(NatToString(id))) == Some(GalleryCatalog[id - 1])
  {
    assert Ids(Featured(HomeCatalog)) == [2, 3, 4] by { HomeFeaturedIds(); }
    assert Ids(GalleryCatalog) == [1, 2, 3, 4] by { GalleryCategories(); }
    assert UniqueIds(GalleryCatalog) by { ShippedCatalogsWellFormed(); }
    NavigationOfShippedShape(HomeCatalog, GalleryCatalog, picks, i);
  }

  /** The record the shipped projects page opens is not the one the home card showed: the
      home literal has no long descriptions, the projects page's literal has one for each. */
  lemma ShippedNavigationSwapsRecord(i: nat)
    requires i < 3
    ensures GalleryCatalog[i + 1].id == Featured(HomeCatalog)[i].id
    ensures GalleryCatalog[i + 1] != Featured(HomeCatalog)[i]
  {
    assert Ids(Featured(HomeCatalog)) == [2, 3, 4] by { HomeFeaturedIds(); }
    assert Ids(GalleryCatalog) == [1, 2, 3, 4] by { GalleryCategories(); }
    assert forall p | p in HomeCatalog :: p.longDescription.None? by { HomeHasNoLongDescriptions(); }
    assert GalleryCatalog[i + 1].longDescription.Some? by { GalleryHasLongDescriptions(); }
    SwapOfShippedShape(HomeCatalog, GalleryCatalog, i);
  }

  /** Same ids, but the featured record lacks the long description the page's record has. */
  lemma SwapOfShippedShape(h: seq<Project>, g: seq<Project>, i: nat)
    requires Ids(Featured(h)) == [2, 3, 4] && Ids(g) == [1, 2, 3, 4] && i < 3
    requires forall p | p in h :: p.longDescription.None?
    requires g[i + 1].longDescription.Some?
    ensures g[i + 1].id == Featured(h)[i].id && g[i + 1] != Featured(h)[i]
  {
    assert Featured(h)[i].id == Ids(Featured(h))[i];
    assert g[i + 1].id == Ids(g)[i + 1];
    assert Featured(h)[i] in h;
  }

  /** No record of the home literal carries a long description. */
  lemma HomeHasNoLongDescriptions()
    ensures forall p | p in HomeCatalog :: p.longDescription.None?
  {
    assert HomeCatalog[0].longDescription.None? && HomeCatalog[1].longDescription.None?;
    assert HomeCatalog[2].longDescription.None? && HomeCatalog[3].longDescription.None?;
  }

  /** Every record of the projects page's literal carries a long description. */
  lemma GalleryHasLongDescriptions()
    ensures forall k | 0 <= k < |GalleryCatalog| :: GalleryCatalog[k].longDescription.Some?
  {
    assert GalleryCatalog[0].longDescription.Some? && GalleryCatalog[1].longDescription.Some?;
    assert GalleryCatalog[2].longDescription.Some? && GalleryCatalog[3].longDescription.Some?;
  }

  /** A home catalog featuring ids 2, 3 and 4 and a page catalog with unique ids 1 to 4: the
      featured card at `i` leads to the page catalog's record with the same id, `i + 2`. */
  lemma NavigationOfShippedShape(h: seq<Project>, g: seq<Project>, picks: seq<nat>, i: nat)
    requires Ids(Featured(h)) == [2, 3, 4] && Ids(g) == [1, 2, 3, 4] && UniqueIds(g)
    requires ValidPicks(h, picks) && i < 3
    ensures var id := i + 2;
            && Navigate(h, FeaturedGrid(h, true, picks), i) == Some(ProjectAddress(id))
            && Gallery.DeepLinkTarget(g, Some(NatToString(id))) == Some(g[id - 1])
  {
    var id := i + 2;
    assert Featured(h)[i].id == Ids(Featured(h))[i] == id;
    assert g[id - 1].id == Ids(g)[id - 1] == id;
    NavigationReachesProject(h, g, picks, i);
  }

  /** The shipped home page renders three featured cards, for projects 2, 3 and 4. */
  lemma ShippedFeaturedGrid(picks: seq<nat>)
    requires ValidPicks(HomeCatalog, picks)
    ensures var grid := FeaturedGrid(HomeCatalog, true, picks).value;
            |grid| == 3 && forall i | 0 <= i < 3 :: ParseInt(grid[i].dataId) == Some([2, 3, 4][i])
  {
    HomeFeaturedIds();
  }
}

=== FILE: query_params.dfy ===
/** `getQueryParams`: the page address's query string read as a map from decoded keys to
    decoded values. The URL decoding (`decodeURIComponent`) is a parameter. */
module QueryParams {
  import opened Text

  /** `location.search.substring(1)`: the search string without its first character (the `?`),
      and empty when the search string is. */
  function QueryString(search: string): (r: string)
    ensures search == [] ==> r == []
    ensures search != [] ==> search == [search[0]] + r
  {
    if search == [] then [] else search[1..]
  }

  /** The key of one `&`-separated piece: its first `=`-piece. */
  function KeyOf(q: string): string {
    Split(q, '=')[0]
  }

  /** The value of one piece: its second `=`-piece, or `''` when it has none. */
  function ValueOf(q: string): string {
    var pieces := Split(q, '=');
    if |pieces| > 1 then pieces[1] else []
  }

  /** The key is the longest prefix of the piece without `=`: the whole piece, or the text
      just before its first `=`. */
  lemma KeyOfShape(q: string)
    ensures var r := KeyOf(q);
            && '=' !in r && |r| <= |q| && r == q[..|r|]
            && (|r| < |q| ==> q[|r|] == '=')
  {
    var pieces := Split(q, '=');
    assert |pieces| > 1 ==> q == pieces[0] + ['='] + Join(pieces[1..], '=');
  }

  /** The value is the text after the first `=` up to the second `=` or the end, and empty
      when the piece has no `=`: whatever follows a second `=` is not part of it. */
  lemma ValueOfShape(q: string)
    ensures var r := ValueOf(q);
            && '=' !in r
            && ('=' !in q ==> r == [])
            && ('=' in q ==> var start := |KeyOf(q)| + 1;
                             && start + |r| <= |q| && r == q[start..start + |r|]
                             && (start + |r| < |q| ==> q[start + |r|] == '='))
  {
    var pieces := Split(q, '=');
    if |pieces| > 1 {
      var tail := pieces[1..];
      assert q == pieces[0] + ['='] + Join(tail, '=');
      assert |tail| > 1 ==> Join(tail, '=') == tail[0] + ['='] + Join(tail[1..], '=');
    } else {
      assert q == pieces[0];
    }
  }

  /** Piece `i` has a non-empty key that decodes to `k`. */
  ghost predicate Names(pieces: seq<string>, decode: string -> string, i: int, k: string)
    requires 0 <= i < |pieces|
  {
    KeyOf(pieces[i]) != [] && decode(KeyOf(pieces[i])) == k
  }

  /** Piece `i` is the last piece that names `k`. */
  ghost predicate LastNaming(pieces: seq<string>, decode: string -> string, k: string, i: int) {
    && 0 <= i < |pieces| && Names(pieces, decode, i, k)
    && forall j | i < j < |pieces| :: !Names(pieces, decode, j, k)
  }

  /** The map the pieces build, visiting them in order: a piece with an empty key is skipped,
      any other sets its decoded key to its decoded value, overwriting an earlier entry. No
      pieces give no entries; `ParamsSize`, `ParamsKeys` and `ParamsLastWins` state the rest. */
  function Params(pieces: seq<string>, decode: string -> string): (r: map<string, string>)
    ensures pieces == [] ==> r == map[]
    decreases |pieces|
  {
    if pieces == [] then map[]
    else
      var m := Params(pieces[..|pieces| - 1], decode);
      var q := pieces[|pieces| - 1];
      if KeyOf(q) != [] then m[decode(KeyOf(q)) := decode(ValueOf(q))] else m
  }

  /** Each piece adds at most one key, so the map never has more keys than there are pieces. */
  lemma {:induction false} ParamsSize(pieces: seq<string>, decode: string -> string)
    ensures |Params(pieces, decode)| <= |pieces|
    decreases |pieces|
  {
    if pieces != [] {
      var init := pieces[..|pieces| - 1];
      ParamsSize(init, decode);
      var m := Params(init, decode);
      var q := pieces[|pieces| - 1];
      if KeyOf(q) != [] {
        var k := decode(KeyOf(q));
        assert m[k := decode(ValueOf(q))].Keys == m.Keys + {k};
        assert |m.Keys + {k}| <= |m.Keys| + 1;
      }
    }
  }

  /** The `&`-separated pieces of the query string. */
  function Pieces(search: string): (r: seq<string>)
    ensures |r| >= 1 && forall i | 0 <= i < |r| :: '&' !in r[i]
    ensures Join(r, '&') == QueryString(search)
  {
    Split(QueryString(search), '&')
  }

  /** `getQueryParams`: the map built from the query string's pieces. An empty query string
      gives the empty map. */
  function GetQueryParams(search: string, decode: string -> string): (r: map<string, string>)
    ensures |search| <= 1 ==> r == map[]
    ensures forall k | k in r :: exists i | 0 <= i < |Pieces(search)| :: Names(Pieces(search), decode, i, k)
  {
    var pieces := Pieces(search);
    assert |search| <= 1 ==> pieces == [""];
    forall k | k in Params(pieces, decode)
      ensures exists i | 0 <= i < |pieces| :: Names(pieces, decode, i, k)
    {
      ParamsKeys(pieces, decode, k);
    }
    Params(pieces, decode)
  }

  /** A last piece that does not name `k` leaves `k`'s entry as the earlier pieces made it. */
  lemma ParamsSnoc(pieces: seq<string>, decode: string -> string, k: string)
    requires pieces != [] && !Names(pieces, decode, |pieces| - 1, k)
    ensures var init := Params(pieces[..|pieces| - 1], decode);
            && (k in Params(pieces, decode) <==> k in init)
            && (k in init ==> Params(pieces, decode)[k] == init[k])
  {
  }

  /** A key is in the map exactly when some piece names it. */
  lemma {:induction false} ParamsKeys(pieces: seq<string>, decode: string -> string, k: string)
    ensures k in Params(pieces, decode) <==> exists i | 0 <= i < |pieces| :: Names(pieces, decode, i, k)
    decreases |pieces|
  {
    if pieces != [] {
      var n := |pieces| - 1;
      var init := pieces[..n];
      if !Names(pieces, decode, n, k) {
        ParamsKeys(init, decode, k);
        ParamsSnoc(pieces, decode, k);
        NamesOfPrefix(pieces, decode, k, n);
        assert (exists i | 0 <= i < |pieces| :: Names(pieces, decode, i, k))
               <==> (exists i | 0 <= i < n :: Names(init, decode, i, k)) by {
          if exists i | 0 <= i < |pieces| :: Names(pieces, decode, i, k) {
            var i :| 0 <= i < |pieces| && Names(pieces, decode, i, k);
            assert Names(init, decode, i, k);
          }
          if exists i | 0 <= i < n :: Names(init, decode, i, k) {
            var i :| 0 <= i < n && Names(init, decode, i, k);
            assert Names(pieces, decode, i, k);
          }
        }
      }
    }
  }

  /** A key in the map holds the decoded value of the last piece that names it: later
      duplicates overwrite earlier ones. */
  lemma {:induction false} ParamsLastWins(pieces: seq<string>, decode: string -> string, k: string)
    requires k in Params(pieces, decode)
    ensures exists i :: LastNaming(pieces, decode, k, i) && Params(pieces, decode)[k] == decode(ValueOf(pieces[i]))
    decreases |pieces|
  {
    var n := |pieces| - 1;
    var init := pieces[..n];
    if Names(pieces, decode, n, k) {
      assert LastNaming(pieces, decode, k, n);
    } else {
      ParamsSnoc(pieces, decode, k);
      ParamsLastWins(init, decode, k);
      var i :| LastNaming(init, decode, k, i) && Params(init, decode)[k] == decode(ValueOf(init[i]));
      assert init[i] == pieces[i];
      assert LastNaming(pieces, decode, k, i) by {
        NamesOfPrefix(pieces, decode, k, n);
        assert forall j | i < j < n :: !Names(init, decode, j, k);
      }
      assert Params(pieces, decode)[k] == decode(ValueOf(pieces[i]));
    }
  }

  /** The first `n` pieces name `k` at the same positions as the whole list. */
  lemma NamesOfPrefix(pieces: seq<string>, decode: string -> string, k: string, n: nat)
    requires n <= |pieces|
    ensures forall i | 0 <= i < n :: Names(pieces[..n], decode, i, k) == Names(pieces, decode, i, k)
  {
    forall i | 0 <= i < n ensures Names(pieces[..n], decode, i, k) == Names(pieces, decode, i, k) {
      assert pieces[..n][i] == pieces[i];
    }
  }

  /** In a piece `key=value=rest` only `key` and `value` count: whatever follows the second `=`
      is lost. */
  lemma SecondEqualsDropsRest(key: string, value: string, rest: string)
    requires '=' !in key && '=' !in value
    ensures var q := key + "=" + value + "=" + rest;
            KeyOf(q) == key && ValueOf(q) == value
  {
    var tail := Split(rest, '=');
    var parts := [key, value] + tail;
    assert parts[1..] == [value] + tail && parts[2..] == tail;
    assert Join(parts, '=') == key + "=" + value + "=" + rest;
    SplitJoin(parts, '=');
  }

  /** A piece `key=value` without further `=` has exactly that key and value; a piece without
      `=` has itself as key and the empty value. */
  lemma PieceParts(key: string, value: string)
    requires '=' !in key && '=' !in value
    ensures KeyOf(key + "=" + value) == key && ValueOf(key + "=" + value) == value
    ensures KeyOf(key) == key && ValueOf(key) == []
  {
    var parts := [key, value];
    assert parts[1..] == [value];
    assert Join(parts, '=') == key + "=" + value;
    SplitJoin(parts, '=');
  }

  /** Neither `&` nor `=` occurs in `s`. */
  predicate Plain(s: string) {
    '&' !in s && '=' !in s
  }

  /** The pieces `k=v` of a list of key/value pairs. */
  function EntryPieces(entries: seq<(string, string)>): (r: seq<string>)
    ensures |r| == |entries|
  {
    seq(|entries|, i requires 0 <= i < |entries| => entries[i].0 + "=" + entries[i].1)
  }

  /** The search string `?k1=v1&k2=v2&…` for a list of key/value pairs. */
  function Encode(entries: seq<(string, string)>): (r: string)
    ensures |r| >= 1 && r[0] == '?'
  {
    "?" + Join(EntryPieces(entries), '&')
  }

  /** Pairs whose keys are non-empty and whose keys and values are plain. */
  ghost predicate PlainEntries(entries: seq<(string, string)>) {
    forall i | 0 <= i < |entries| :: entries[i].0 != [] && Plain(entries[i].0) && Plain(entries[i].1)
  }

  /** An encoded list of plain pairs splits back into its pieces, each with its pair's key and
      value. */
  lemma EncodedPieces(entries: seq<(string, string)>)
    requires |entries| >= 1 && PlainEntries(entries)
    ensures Pieces(Encode(entries)) == EntryPieces(entries)
    ensures forall i | 0 <= i < |entries| ::
              KeyOf(EntryPieces(entries)[i]) == entries[i].0 && ValueOf(EntryPieces(entries)[i]) == entries[i].1
  {
    var parts := EntryPieces(entries);
    assert QueryString(Encode(entries)) == Join(parts, '&');
    forall i | 0 <= i < |parts|
      ensures '&' !in parts[i]
      ensures KeyOf(parts[i]) == entries[i].0 && ValueOf(parts[i]) == entries[i].1
    {
      assert parts[i] == entries[i].0 + "=" + entries[i].1;
      PieceParts(entries[i].0, entries[i].1);
    }
    SplitJoin(parts, '&');
  }

  /** Reading back an encoded list of pairs with non-empty plain keys and plain values: a key is
      present exactly when some pair carries it (after decoding), with the decoded value of the
      last pair that does. */
  lemma EncodeThenParse(entries: seq<(string, string)>, decode: string -> string, k: string)
    requires |entries| >= 1 && PlainEntries(entries)
    ensures var r := GetQueryParams(Encode(entries), decode);
            && (k in r <==> exists i | 0 <= i < |entries| :: decode(entries[i].0) == k)
            && (k in r ==> exists i | 0 <= i < |entries| ::
                              && decode(entries[i].0) == k && r[k] == decode(entries[i].1)
                              && forall j | i < j < |entries| :: decode(entries[j].0) != k)
  {
    var parts := EntryPieces(entries);
    EncodedPieces(entries);
    var r := Params(parts, decode);
    assert GetQueryParams(Encode(entries), decode) == r;
    assert forall i | 0 <= i < |parts| :: Names(parts, decode, i, k) <==> decode(entries[i].0) == k;
    ParamsKeys(parts, decode, k);
    if k in r {
      ParamsLastWins(parts, decode, k);
      var i :| LastNaming(parts, decode, k, i) && r[k] == decode(ValueOf(parts[i]));
      assert decode(entries[i].0) == k && r[k] == decode(entries[i].1);
    }
  }
}

=== FILE: render.dfy ===
/** The rendering of a project as an abstract node tree instead of HTML text: the card shown in
    a grid and the detail view shown in the modal. Markup details (classes, inline styles,
    SVG paths) are not part of the tree; what is kept is every choice the templates make. */
module Render {
  import opened Wrappers
  import opened Text
  import opened Catalog

  /** The placeholder backgrounds, in the order both scripts list them. Project cards on the
      projects page use all five; the detail view and the home page's cards use the first four. */
  const Gradients: seq<string> := [
    "linear-gradient(135deg, #667eea 0%, #764ba2 100%)",
    "linear-gradient(135deg, #f093fb 0%, #f5576c 100%)",
    "linear-gradient(135deg, #4facfe 0%, #00f2fe 100%)",
    "linear-gradient(135deg, #43e97b 0%, #38f9d7 100%)",
    "linear-gradient(135deg, #fa709a 0%, #fee140 100%)"
  ]
  const CardPaletteSize: nat := 5
  const DetailPaletteSize: nat := 4
  const HomePaletteSize: nat := 4

  /** Sizes of the placeholder icon on a card and in the detail view. */
  const CardIconSize: nat := 80
  const DetailIconSize: nat := 120

  /** The media block: a video (autoplaying on cards, with controls in the detail view), an
      image whose alternative text is the title, or the placeholder icon. */
  datatype Media = Video(src: string, controls: bool) | Image(src: string, alt: string) | Placeholder(iconSize: nat)

  /** The background of the media block. */
  datatype Background = Transparent | Black | Gradient(css: string)

  datatype LinkKind = GitHub | Demo
  datatype Link = Link(kind: LinkKind, href: string)

  /** A project card; `dataId` is the text of its `data-project-id` attribute. */
  datatype Card = Card(
    dataId: string, background: Background, media: Media,
    title: string, description: string, tags: seq<string>, links: seq<Link>)

  /** The modal's detail view; `features` is the bullet list, absent when not rendered. */
  datatype Detail = Detail(
    background: Background, media: Media, title: string, tags: seq<string>,
    body: string, features: Option<seq<string>>, links: seq<Link>)

  /** The project has a video or an image to show (`project.video || project.image`). */
  predicate HasMedia(p: Project) {
    Truthy(p.video) || Truthy(p.image)
  }

  /** Media precedence: a video wins over an image, and the placeholder appears only when
      there is neither. */
  function MediaOf(p: Project, controls: bool, iconSize: nat): (m: Media)
    ensures m.Video? <==> Truthy(p.video)
    ensures m.Image? <==> !Truthy(p.video) && Truthy(p.image)
    ensures m.Placeholder? <==> !HasMedia(p)
    ensures m.Video? ==> Some(m.src) == p.video && m.src != "" && m.controls == controls
    ensures m.Image? ==> Some(m.src) == p.image && m.src != "" && m.alt == p.title
    ensures m.Placeholder? ==> m.iconSize == iconSize
  {
    if Truthy(p.video) then Video(p.video.value, controls)
    else if Truthy(p.image) then Image(p.image.value, p.title)
    else Placeholder(iconSize)
  }

  /** The link row: a GitHub link when the project has one, then a demo link when it has one;
      a link is never emitted with an empty or missing target. */
  function LinksOf(p: Project): (r: seq<Link>)
    ensures (exists k | 0 <= k < |r| :: r[k].kind == GitHub) <==> Truthy(p.github)
    ensures (exists k | 0 <= k < |r| :: r[k].kind == Demo) <==> Truthy(p.demo)
    ensures forall k | 0 <= k < |r| :: r[k].href != ""
                                       && (r[k].kind == GitHub ==> Some(r[k].href) == p.github)
                                       && (r[k].kind == Demo ==> Some(r[k].href) == p.demo)
    ensures forall j, k | 0 <= j < k < |r| :: r[j].kind == GitHub && r[k].kind == Demo
  {
    var r := (if Truthy(p.github) then [Link(GitHub, p.github.value)] else [])
             + (if Truthy(p.demo) then [Link(Demo, p.demo.value)] else []);
    assert Truthy(p.github) ==> r[0].kind == GitHub;
    assert Truthy(p.demo) ==> r[|r| - 1].kind == Demo;
    r
  }

  /** A card for `p` whose placeholder background is `gradient`. The id attribute reads back
      as the project's id; the background is transparent exactly when there is media; the
      tags appear once each, in order. */
  function CardFor(p: Project, gradient: string): (c: Card)
    ensures ParseInt(c.dataId) == Some(p.id)
    ensures c.background == Transparent <==> HasMedia(p)
    ensures !HasMedia(p) ==> c.background == Gradient(gradient)
    ensures c.media == MediaOf(p, false, CardIconSize)
    ensures c.title == p.title && c.description == p.description
    ensures c.tags == p.tags && c.links == LinksOf(p)
  {
    ParseIntOfDecimal(p.id);
    Card(NatToString(p.id),
         if HasMedia(p) then Transparent else Gradient(gradient),
         MediaOf(p, false, CardIconSize),
         p.title, p.description, p.tags, LinksOf(p))
  }

  /** The projects page's card: the placeholder gradient is picked by `id mod 5`, so it is
      always one of the five and the same for the same id. */
  function GalleryCard(p: Project): (c: Card)
    ensures ParseInt(c.dataId) == Some(p.id)
    ensures c.background == Transparent <==> HasMedia(p)
    ensures !HasMedia(p) ==> c.background == Gradient(Gradients[p.id % CardPaletteSize])
    ensures c.media == MediaOf(p, false, CardIconSize)
    ensures c.title == p.title && c.description == p.description
    ensures c.tags == p.tags && c.links == LinksOf(p)
  {
    CardFor(p, Gradients[p.id % CardPaletteSize])
  }

  /** The home page's card: the same template with the gradient picked at random; the random
      pick is the parameter `pick`, below the palette size 4. */
  function HomeCard(p: Project, pick: nat): (c: Card)
    requires pick < HomePaletteSize
    ensures ParseInt(c.dataId) == Some(p.id)
    ensures c.background == Transparent <==> HasMedia(p)
    ensures !HasMedia(p) ==> c.background == Gradient(Gradients[pick])
    ensures !HasMedia(p) ==> c.background.Gradient? && c.background.css in Gradients[..HomePaletteSize]
    ensures c.media == MediaOf(p, false, CardIconSize)
    ensures c.title == p.title && c.description == p.description
    ensures c.tags == p.tags && c.links == LinksOf(p)
  {
    assert Gradients[pick] == Gradients[..HomePaletteSize][pick];
    CardFor(p, Gradients[pick])
  }

  /** The modal's detail view: black behind media, otherwise the gradient picked by
      `id mod 4`; the long description falling back to the short one; the feature list
      exactly when the record has one; the same conditional links as the card. */
  function DetailFor(p: Project): (d: Detail)
    ensures d.background == Black <==> HasMedia(p)
    ensures !HasMedia(p) ==> d.background == Gradient(Gradients[p.id % DetailPaletteSize])
    ensures d.media == MediaOf(p, true, DetailIconSize)
    ensures d.title == p.title && d.tags == p.tags
    ensures Truthy(p.longDescription) ==> d.body == p.longDescription.value
    ensures !Truthy(p.longDescription) ==> d.body == p.description
    ensures d.features.Some? <==> p.features.Some?
    ensures d.features.Some? ==> d.features.value == p.features.value
    ensures d.links == LinksOf(p)
  {
    Detail(if HasMedia(p) then Black else Gradient(Gradients[p.id % DetailPaletteSize]),
           MediaOf(p, true, DetailIconSize),
           p.title, p.tags,
           if Truthy(p.longDescription) then p.longDescription.value else p.description,
           p.features, LinksOf(p))
  }

  /** The placeholder gradient depends on the id alone: two media-less projects whose ids
      agree modulo the palette size get the same background, on cards and in the modal. */
  lemma PlaceholderDependsOnIdOnly(p: Project, q: Project)
    requires !HasMedia(p) && !HasMedia(q)
    ensures p.id % CardPaletteSize == q.id % CardPaletteSize ==> GalleryCard(p).background == GalleryCard(q).background
    ensures p.id % DetailPaletteSize == q.id % DetailPaletteSize ==> DetailFor(p).background == DetailFor(q).background
  {
  }

  /** Rendering one card per project, in order (`projects.map(createProjectCard)`). */
  function GalleryCards(ps: seq<Project>): (r: seq<Card>)
    ensures |r| == |ps|
    ensures forall i | 0 <= i < |ps| :: r[i] == GalleryCard(ps[i])
  {
    seq(|ps|, i requires 0 <= i < |ps| => GalleryCard(ps[i]))
  }
}

=== FILE: seqs.dfy ===
/** Order-preserving selection from a sequence (`Array.prototype.filter`). */
module Seqs {

  /** `sub` is obtained from `xs` by deleting zero or more elements, keeping the order of the
      rest. */
  ghost predicate IsSubsequence<T>(sub: seq<T>, xs: seq<T>)
    decreases |xs|
  {
    || sub == []
    || (xs != [] && (|| IsSubsequence(sub, xs[1..])
                     || (sub[0] == xs[0] && IsSubsequence(sub[1..], xs[1..]))))
  }

  /** `xs.filter(keep)`: exactly the elements of `xs` that satisfy `keep`, in their order, each
      as often as it occurs in `xs` (`SelectCounts`). */
  function Select<T>(xs: seq<T>, keep: T -> bool): (r: seq<T>)
    ensures forall i | 0 <= i < |r| :: r[i] in xs && keep(r[i])
    ensures forall i | 0 <= i < |xs| && keep(xs[i]) :: xs[i] in r
    ensures IsSubsequence(r, xs)
    ensures |r| <= |xs|
    ensures (forall i | 0 <= i < |xs| :: keep(xs[i])) ==> r == xs
  {
    if xs == [] then []
    else
      var rest := Select(xs[1..], keep);
      if keep(xs[0]) then
        var r := [xs[0]] + rest;
        assert r[1..] == rest;
        assert (forall i | 0 <= i < |xs| :: keep(xs[i])) ==> r == xs by {
          if forall i | 0 <= i < |xs| :: keep(xs[i]) {
            assert forall i | 0 <= i < |xs[1..]| :: keep(xs[1..][i]) by {
              forall i | 0 <= i < |xs[1..]| ensures keep(xs[1..][i]) {
                assert xs[1..][i] == xs[i + 1];
              }
            }
          }
        }
        r
      else
        rest
  }

  /** Selection keeps each element that satisfies `keep` exactly as often as it occurs in
      `xs`, and no other element at all. */
  lemma {:induction false} SelectCounts<T(!new)>(xs: seq<T>, keep: T -> bool)
    ensures forall x :: multiset(Select(xs, keep))[x] == if keep(x) then multiset(xs)[x] else 0
  {
    if xs != [] {
      var rest := Select(xs[1..], keep);
      SelectCounts(xs[1..], keep);
      assert multiset(xs) == multiset{xs[0]} + multiset(xs[1..]) by {
        assert xs == [xs[0]] + xs[1..];
      }
      if keep(xs[0]) {
        assert multiset(Select(xs, keep)) == multiset{xs[0]} + multiset(rest);
      } else {
        assert Select(xs, keep) == rest;
      }
    }
  }

  /** Selecting with a predicate that holds of no element gives the empty sequence. */
  lemma SelectNone<T>(xs: seq<T>, keep: T -> bool)
    requires forall i | 0 <= i < |xs| :: !keep(xs[i])
    ensures Select(xs, keep) == []
  {
    var r := Select(xs, keep);
    if r != [] {
      assert false;
    }
  }

  /** Selecting from one element keeps it exactly when it satisfies `keep`. */
  lemma SelectSingle<T>(x: T, keep: T -> bool)
    ensures Select([x], keep) == (if keep(x) then [x] else [])
  {
    assert [x][1..] == [];
  }

  /** Selection distributes over concatenation: filtering the parts and joining the results
      is filtering the whole. */
  lemma {:induction false} SelectConcat<T>(a: seq<T>, b: seq<T>, keep: T -> bool)
    ensures Select(a + b, keep) == Select(a, keep) + Select(b, keep)
  {
    if a != [] {
      assert (a + b)[1..] == a[1..] + b;
      SelectConcat(a[1..], b, keep);
    } else {
      assert a + b == b;
    }
  }
}

=== FILE: text.dfy ===
/** The JavaScript string primitives the site's scripts lean on: the white-space class shared
    by `\s` and `String.prototype.trim`, `trim`, ASCII `toLowerCase`, `split` on one
    character, and decimal integer text (template-literal number formatting and `parseInt`). */
module Text {
  import opened Wrappers

  /** The characters that JavaScript's `\s` and `trim` treat as white space or line ends. */
  predicate IsSpace(c: char) {
    || c == ' ' || c == '\t' || c == '\n' || c == '\U{000B}' || c == '\U{000C}' || c == '\r'
    || c == '\U{00A0}' || c == '\U{1680}' || ('\U{2000}' <= c <= '\U{200A}')
    || c == '\U{2028}' || c == '\U{2029}' || c == '\U{202F}' || c == '\U{205F}'
    || c == '\U{3000}' || c == '\U{FEFF}'
  }

  /* ---------------- trimming ---------------- */

  /** `s` with its leading white space removed. */
  function TrimStart(s: string): (r: string)
    ensures |r| <= |s| && r == s[|s| - |r|..]
    ensures forall k | 0 <= k < |s| - |r| :: IsSpace(s[k])
    ensures r == [] || !IsSpace(r[0])
    decreases |s|
  {
    if s != [] && IsSpace(s[0]) then TrimStart(s[1..]) else s
  }

  /** `s` with its trailing white space removed. */
  function TrimEnd(s: string): (r: string)
    ensures |r| <= |s| && r == s[..|r|]
    ensures forall k | |r| <= k < |s| :: IsSpace(s[k])
    ensures r == [] || !IsSpace(r[|r| - 1])
    decreases |s|
  {
    if s != [] && IsSpace(s[|s| - 1]) then TrimEnd(s[..|s| - 1]) else s
  }

  /** `r` is what remains of `s` once the white space before index `i` and after `r` is cut. */
  ghost predicate StrippedAt(s: string, i: int, r: string) {
    && 0 <= i <= |s| - |r| && r == s[i..i + |r|]
    && (forall k | 0 <= k < i :: IsSpace(s[k]))
    && (forall k | i + |r| <= k < |s| :: IsSpace(s[k]))
  }

  /** `String.prototype.trim`: the contiguous middle of `s` that neither starts nor ends with
      white space, everything cut away on either side being white space. */
  function Trim(s: string): (r: string)
    ensures exists i :: StrippedAt(s, i, r)
    ensures r == [] || (!IsSpace(r[0]) && !IsSpace(r[|r| - 1]))
  {
    var t := TrimStart(s);
    var r := TrimEnd(t);
    var i := |s| - |t|;
    assert StrippedAt(s, i, r);
    r
  }

  /** A string that already has no white space at either end is its own trim. */
  lemma TrimFixesTrimmed(s: string)
    requires s == [] || (!IsSpace(s[0]) && !IsSpace(s[|s| - 1]))
    ensures Trim(s) == s
  {
  }

  /* ---------------- lower-casing ---------------- */

  /** ASCII upper-case letters map to lower case; every other character is kept. */
  function LowerChar(c: char): char {
    if 'A' <= c <= 'Z' then (c as int - 'A' as int + 'a' as int) as char else c
  }

  predicate HasNoUpper(s: string) {
    forall k | 0 <= k < |s| :: !('A' <= s[k] <= 'Z')
  }

  /** `String.prototype.toLowerCase`, restricted to ASCII letters. */
  function ToLower(s: string): (r: string)
    ensures |r| == |s|
    ensures HasNoUpper(r)
    ensures forall k | 0 <= k < |s| :: r[k] == LowerChar(s[k])
  {
    seq(|s|, k requires 0 <= k < |s| => LowerChar(s[k]))
  }

  /** Lower-casing leaves a string without upper-case letters unchanged, so lower-casing
      twice is lower-casing once. */
  lemma ToLowerFixesLower(s: string)
    requires HasNoUpper(s)
    ensures ToLower(s) == s
  {
  }

  /* ---------------- splitting ---------------- */

  /** Joins `parts` with `sep` between neighbours (`Array.prototype.join`). */
  function Join(parts: seq<string>, sep: char): string
  {
    if parts == [] then ""
    else if |parts| == 1 then parts[0]
    else parts[0] + [sep] + Join(parts[1..], sep)
  }

  /** `s.split(sep)` for a one-character separator: never empty, no piece contains the
      separator, and joining the pieces back gives `s`. */
  function Split(s: string, sep: char): (r: seq<string>)
    ensures |r| >= 1
    ensures forall i | 0 <= i < |r| :: sep !in r[i]
    ensures Join(r, sep) == s
    decreases |s|
  {
    if s == [] then [""]
    else
      var rest := Split(s[1..], sep);
      if s[0] == sep then
        assert Join([""] + rest, sep) == [sep] + Join(rest, sep) by {
          assert ([""] + rest)[1..] == rest;
        }
        [""] + rest
      else
        var r := [[s[0]] + rest[0]] + rest[1..];
        assert Join(r, sep) == [s[0]] + Join(rest, sep) by {
          if |rest| > 1 {
            assert r[1..] == rest[1..];
          }
        }
        r
  }

  /** Splitting a joined list of separator-free pieces recovers the pieces. */
  lemma {:induction false} SplitJoin(parts: seq<string>, sep: char)
    requires |parts| >= 1
    requires forall i | 0 <= i < |parts| :: sep !in parts[i]
    ensures Split(Join(parts, sep), sep) == parts
    decreases |parts|, |parts[0]|
  {
    var s := Join(parts, sep);
    if parts[0] == [] {
      if |parts| == 1 {
        assert s == [];
      } else {
        assert s == [sep] + Join(parts[1..], sep);
        assert s[1..] == Join(parts[1..], sep);
        SplitJoin(parts[1..], sep);
        assert parts == [""] + parts[1..];
      }
    } else {
      var c := parts[0][0];
      var shorter := [parts[0][1..]] + parts[1..];
      assert shorter[1..] == parts[1..];
      assert c != sep by { assert c == parts[0][0]; }
      assert forall i | 0 <= i < |shorter| :: sep !in shorter[i] by {
        forall i | 0 <= i < |shorter|
          ensures sep !in shorter[i]
        {
          if i == 0 {
            assert forall x | x in parts[0][1..] :: x in parts[0];
          } else {
            assert shorter[i] == parts[i];
          }
        }
      }
      assert s == [c] + Join(shorter, sep) by {
        if |parts| == 1 {
        } else {
          assert parts[0] == [c] + parts[0][1..];
        }
      }
      assert s[1..] == Join(shorter, sep);
      SplitJoin(shorter, sep);
      assert [c] + shorter[0] == parts[0];
      assert parts == [parts[0]] + parts[1..];
    }
  }

  /* ---------------- decimal numbers ---------------- */

  predicate IsDigit(c: char) {
    '0' <= c <= '9'
  }

  predicate AllDigits(s: string) {
    forall k | 0 <= k < |s| :: IsDigit(s[k])
  }

  function DigitChar(d: nat): (c: char)
    requires d < 10
    ensures IsDigit(c)
  {
    ('0' as int + d) as char
  }

  function DigitValue(c: char): (d: nat)
    requires IsDigit(c)
    ensures d < 10 && DigitChar(d) == c
  {
    c as int - '0' as int
  }

  /** The number a string of decimal digits denotes (most significant digit first). */
  function DigitsValue(s: string): nat
    requires AllDigits(s)
  {
    if s == [] then 0 else DigitsValue(s[..|s| - 1]) * 10 + DigitValue(s[|s| - 1])
  }

  /** How a template literal `${n}` writes a non-negative integer: shortest decimal form. */
  function NatToString(n: nat): (r: string)
    ensures |r| >= 1 && AllDigits(r)
    ensures |r| > 1 ==> r[0] != '0'
  {
    if n < 10 then [DigitChar(n)] else NatToString(n / 10) + [DigitChar(n % 10)]
  }

  /** Reading back the digits of `NatToString(n)` gives `n`. */
  lemma {:induction false} DecimalRoundTrip(n: nat)
    ensures DigitsValue(NatToString(n)) == n
  {
    if n >= 10 {
      var s := NatToString(n);
      assert s[..|s| - 1] == NatToString(n / 10);
      DecimalRoundTrip(n / 10);
    }
  }

  /** The longest prefix of `s` made of decimal digits. */
  function LeadingDigits(s: string): (r: string)
    ensures |r| <= |s| && r == s[..|r|] && AllDigits(r)
    ensures |r| < |s| ==> !IsDigit(s[|r|])
  {
    if s != [] && IsDigit(s[0]) then [s[0]] + LeadingDigits(s[1..]) else ""
  }

  /** `parseInt(s)` in base ten: leading white space is skipped, one optional sign is read,
      then the longest run of digits; with no digit at all the result is `NaN` (`None`). */
  function ParseInt(s: string): (r: Option<int>)
    ensures (forall k | 0 <= k < |s| :: !IsDigit(s[k])) ==> r.None?
    ensures s != [] && AllDigits(s) ==> r == Some(DigitsValue(s))
    ensures |s| > 1 && s[0] == '-' && AllDigits(s[1..]) ==> r == Some(0 - DigitsValue(s[1..]) as int)
  {
    var t := TrimStart(s);
    var negative := t != [] && t[0] == '-';
    var body := if t != [] && (t[0] == '-' || t[0] == '+') then t[1..] else t;
    var digits := LeadingDigits(body);
    assert digits != [] ==> body[0] in s;
    assert s != [] && AllDigits(s) ==> digits == s by {
      if s != [] && AllDigits(s) {
        assert !IsSpace(s[0]);
        LeadingDigitsOfDigits(s);
      }
    }
    assert |s| > 1 && s[0] == '-' && AllDigits(s[1..]) ==> negative && digits == s[1..] by {
      if |s| > 1 && s[0] == '-' && AllDigits(s[1..]) {
        LeadingDigitsOfDigits(s[1..]);
      }
    }
    if digits == [] then None
    else if negative then Some(0 - DigitsValue(digits) as int)
    else Some(DigitsValue(digits))
  }

  /** A decimal id written into markup by `${id}` parses back with `parseInt` to the same id. */
  lemma ParseIntOfDecimal(n: nat)
    ensures ParseInt(NatToString(n)) == Some(n)
  {
    var s := NatToString(n);
    assert TrimStart(s) == s by { assert !IsSpace(s[0]); }
    assert LeadingDigits(s) == s by { LeadingDigitsOfDigits(s); }
    DecimalRoundTrip(n);
  }

  lemma {:induction false} LeadingDigitsOfDigits(s: string)
    requires AllDigits(s)
    ensures LeadingDigits(s) == s
  {
    if s != [] {
      LeadingDigitsOfDigits(s[1..]);
    }
  }
}

=== FILE: throttle.dfy ===
/** `throttle(func, delay)`: a wrapper that forwards a call to `func` only when at least
    `delay` milliseconds have passed since the last forwarded call. The clock reading of each
    call is a parameter. */
module Throttle {
  import opened Wrappers
  import opened Seqs

  /** The wrapper's one piece of state: the time of the last forwarded call. */
  datatype Gate = Gate(lastCall: int)

  /** A freshly made wrapper has `lastCall` 0. */
  const Fresh: Gate := Gate(0)

  /** One call at time `now` with argument `args`: forwarded, updating `lastCall` and returning
      what `func` returns, exactly when `now - lastCall >= delay`; otherwise dropped, returning
      `undefined` (`None`) and leaving the gate as it was. */
  function Call<A, R>(g: Gate, delay: int, now: int, func: A -> R, args: A): (r: (Gate, Option<R>))
    ensures r.1.Some? <==> now - g.lastCall >= delay
    ensures r.1.Some? ==> r.1.value == func(args) && r.0 == Gate(now)
    ensures r.1.None? ==> r.0 == g
  {
    if !Admits(g, delay, now) then (g, None)
    else (Gate(now), Some(func(args)))
  }

  /** Whether a call at `now` goes through: the wrapper's `now - lastCall < delay` test fails. */
  predicate Admits(g: Gate, delay: int, now: int) {
    now - g.lastCall >= delay
  }

  /** The gate after a sequence of calls is the gate each `Call` leaves for the next, whatever
      the wrapped function and its arguments. */
  lemma AfterCalls<A, R>(g: Gate, delay: int, t: int, ts: seq<int>, func: A -> R, args: A)
    ensures After(g, delay, [t] + ts) == After(Call(g, delay, t, func, args).0, delay, ts)
  {
    assert ([t] + ts)[1..] == ts;
  }

  /** The gate after a sequence of calls at the given times: the initial gate when no call got
      through, otherwise a gate holding the time of one of the calls. */
  function After(g: Gate, delay: int, times: seq<int>): (r: Gate)
    ensures r == g || r.lastCall in times
    decreases |times|
  {
    if times == [] then g
    else After(if Admits(g, delay, times[0]) then Gate(times[0]) else g, delay, times[1..])
  }

  /** The times of the calls that get through, in order. */
  function Forwarded(g: Gate, delay: int, times: seq<int>): (r: seq<int>)
    ensures IsSubsequence(r, times)
    decreases |times|
  {
    if times == [] then []
    else if Admits(g, delay, times[0]) then [times[0]] + Forwarded(Gate(times[0]), delay, times[1..])
    else Forwarded(g, delay, times[1..])
  }

  /** Forwarding over two stretches of calls: the second stretch starts from the gate the first
      one leaves. */
  lemma {:induction false} ForwardedConcat(g: Gate, delay: int, a: seq<int>, b: seq<int>)
    ensures Forwarded(g, delay, a + b) == Forwarded(g, delay, a) + Forwarded(After(g, delay, a), delay, b)
    ensures After(g, delay, a + b) == After(After(g, delay, a), delay, b)
    decreases |a|
  {
    if a == [] {
      assert a + b == b;
    } else {
      assert (a + b)[0] == a[0] && (a + b)[1..] == a[1..] + b;
      ForwardedConcat(if Admits(g, delay, a[0]) then Gate(a[0]) else g, delay, a[1..], b);
    }
  }

  /** Call `k` is forwarded exactly when it comes at least `delay` after the last forwarded call
      before it, or after the initial `lastCall` when none was: every call far enough from the
      previous forwarded one gets through, and every dropped call is too close to it. */
  lemma ForwardedDecides(g: Gate, delay: int, times: seq<int>, k: nat)
    requires k < |times|
    ensures var before := Forwarded(g, delay, times[..k]);
            var last := if before == [] then g.lastCall else before[|before| - 1];
            Forwarded(g, delay, times[..k + 1]) == before + (if times[k] - last >= delay then [times[k]] else [])
  {
    assert times[..k + 1] == times[..k] + [times[k]];
    ForwardedConcat(g, delay, times[..k], [times[k]]);
    ForwardedSpacing(g, delay, times[..k]);
  }

  /** A fresh wrapper (`lastCall` 0) forwards its first call when the clock reads at least
      `delay`, as any real clock does; while every reading stays below `delay` it forwards
      nothing at all. */
  lemma {:induction false} FreshForwarding(delay: int, times: seq<int>)
    ensures |times| > 0 && times[0] >= delay ==> Forwarded(Fresh, delay, times)[..1] == times[..1]
    ensures (forall i | 0 <= i < |times| :: times[i] < delay) ==> Forwarded(Fresh, delay, times) == []
    decreases |times|
  {
    if times != [] && forall i | 0 <= i < |times| :: times[i] < delay {
      assert forall i | 0 <= i < |times[1..]| :: times[1..][i] < delay by {
        forall i | 0 <= i < |times[1..]| ensures times[1..][i] < delay {
          assert times[1..][i] == times[i + 1];
        }
      }
      FreshForwarding(delay, times[1..]);
    }
  }

  /** Forwarded calls are spaced: the first is at least `delay` after the gate's `lastCall`,
      each next one at least `delay` after the previous, and the gate ends on the last one. */
  lemma {:induction false} ForwardedSpacing(g: Gate, delay: int, times: seq<int>)
    ensures var r := Forwarded(g, delay, times);
            && (|r| > 0 ==> r[0] - g.lastCall >= delay)
            && (forall i | 0 <= i < |r| - 1 :: r[i + 1] - r[i] >= delay)
            && After(g, delay, times).lastCall == (if r == [] then g.lastCall else r[|r| - 1])
    decreases |times|
  {
    if times != [] {
      if Admits(g, delay, times[0]) {
        var rest := Forwarded(Gate(times[0]), delay, times[1..]);
        ForwardedSpacing(Gate(times[0]), delay, times[1..]);
        var r := [times[0]] + rest;
        assert forall i | 0 <= i < |r| - 1 :: r[i + 1] - r[i] >= delay by {
          forall i | 0 <= i < |r| - 1 ensures r[i + 1] - r[i] >= delay {
            if i > 0 {
              assert r[i] == rest[i - 1] && r[i + 1] == rest[i];
            }
          }
        }
      } else {
        ForwardedSpacing(g, delay, times[1..]);
      }
    }
  }
}

=== FILE: typewriter.dfy ===
/** The hero typewriter: words are typed one character per tick, held, deleted one character
    per tick, and the next word follows. Each call of the timer callback is one `Step` over
    the state `(wordIndex, charIndex, isDeleting)`, returning the text to display and the
    delay before the next call. The words are JavaScript strings, sequences of UTF-16 code
    units, and `length` and `substring` count those units, so a character above U+FFFF takes
    two ticks to type. */
module Typewriter {
  import opened Wrappers
  import opened Utf16

  datatype State = State(wordIndex: nat, charIndex: int, deleting: bool)

  /** Delays between ticks: while typing, while deleting, and the hold on a complete word. */
  datatype Timing = Timing(speed: nat, deleteSpeed: nat, pause: nat)

  /** The effect of one tick: the displayed text (as code units), the next state and the next
      delay. */
  datatype Tick = Tick(text: JsString, next: State, delay: nat)

  /** The hold before the next word once a word has been fully deleted. */
  const WordGap: nat := 500

  const Start: State := State(0, 0, false)

  /** The words and delays the home page's hero uses (also the defaults of the timing). */
  const HeroRoles: seq<string> := ["Software Engineer", "Flutter Developer", "Web Developer", "UI/UX Enthusiast", "Problem Solver"]
  const HeroTiming: Timing := Timing(100, 50, 2000)

  /** A list of words as JavaScript holds them: each word's code units. */
  function Units(words: seq<string>): (r: seq<JsString>)
    ensures |r| == |words| && forall i | 0 <= i < |words| :: r[i] == Encode(words[i])
  {
    seq(|words|, i requires 0 <= i < |words| => Encode(words[i]))
  }

  /** `word.substring(0, end)` on the word's code units: the prefix of length `end`, clamped
      into `[0, |word|]`. */
  function Prefix(word: JsString, end: int): (r: JsString)
    ensures |r| == if end < 0 then 0 else if end > |word| then |word| else end
    ensures r == word[..|r|]
  {
    if end < 0 then [] else if end > |word| then word else word[..end]
  }

  /** One call of the timer callback. */
  function Step(words: seq<JsString>, t: Timing, s: State): (r: Tick)
    requires s.wordIndex < |words|
    ensures r.next.wordIndex < |words|
    ensures !s.deleting ==>
              && r.text == Prefix(words[s.wordIndex], s.charIndex + 1)
              && r.next.charIndex == s.charIndex + 1
              && r.next.wordIndex == s.wordIndex
              && (r.next.deleting <==> r.next.charIndex == |words[s.wordIndex]|)
              && r.delay == (if r.next.deleting then t.pause else t.speed)
    ensures s.deleting ==>
              && r.text == Prefix(words[s.wordIndex], s.charIndex - 1)
              && r.next.charIndex == s.charIndex - 1
              && (r.next.deleting <==> r.next.charIndex != 0)
              && r.next.wordIndex == (if r.next.charIndex == 0 then (s.wordIndex + 1) % |words| else s.wordIndex)
              && r.delay == (if r.next.deleting then t.deleteSpeed else WordGap)
  {
    var word := words[s.wordIndex];
    if !s.deleting then
      var text := Prefix(word, s.charIndex + 1);
      var c := s.charIndex + 1;
      if c == |word| then Tick(text, State(s.wordIndex, c, true), t.pause)
      else Tick(text, State(s.wordIndex, c, false), t.speed)
    else
      var text := Prefix(word, s.charIndex - 1);
      var c := s.charIndex - 1;
      if c == 0 then Tick(text, State((s.wordIndex + 1) % |words|, 0, false), WordGap)
      else Tick(text, State(s.wordIndex, c, true), t.deleteSpeed)
  }

  /** Every word has at least one character (needed for a word ever to finish typing). */
  ghost predicate NonEmptyWords(words: seq<JsString>) {
    forall i | 0 <= i < |words| :: words[i] != []
  }

  /** The states the typewriter passes through: the word index in range, the character index
      within the word, below its end while typing and above zero while deleting. */
  ghost predicate Valid(words: seq<JsString>, s: State) {
    && s.wordIndex < |words|
    && 0 <= s.charIndex <= |words[s.wordIndex]|
    && (!s.deleting ==> s.charIndex < |words[s.wordIndex]|)
    && (s.deleting ==> s.charIndex >= 1)
  }

  /** With non-empty words, a step from a valid state reaches a valid state, and the displayed
      text is always the current word's prefix of length `charIndex`: one character longer
      than before while typing, one shorter while deleting. Deleting starts exactly when the
      word is complete and typing resumes exactly when it is empty. */
  lemma StepKeepsValid(words: seq<JsString>, t: Timing, s: State)
    requires NonEmptyWords(words) && Valid(words, s)
    ensures var r := Step(words, t, s);
            && Valid(words, r.next)
            && r.text == words[r.next.wordIndex][..r.next.charIndex]
            && (!s.deleting ==> |r.text| == s.charIndex + 1)
            && (s.deleting ==> |r.text| == s.charIndex - 1)
            && (!s.deleting ==> (r.next.deleting <==> r.text == words[s.wordIndex]))
            && (s.deleting ==> (!r.next.deleting <==> r.text == []))
  {
  }

  /** The start state is valid when the first word is non-empty. */
  lemma StartValid(words: seq<JsString>)
    requires |words| > 0 && NonEmptyWords(words)
    ensures Valid(words, Start)
  {
  }

  /** The state after `k` ticks. */
  function Run(words: seq<JsString>, t: Timing, s: State, k: nat): (r: State)
    requires NonEmptyWords(words) && Valid(words, s)
    ensures Valid(words, r)
    decreases k
  {
    if k == 0 then s
    else
      StepKeepsValid(words, t, s);
      Run(words, t, Step(words, t, s).next, k - 1)
  }

  /** Running `a` ticks then `b` more is running `a + b` ticks. */
  lemma {:induction false} RunAdds(words: seq<JsString>, t: Timing, s: State, a: nat, b: nat)
    requires NonEmptyWords(words) && Valid(words, s)
    ensures Run(words, t, Run(words, t, s, a), b) == Run(words, t, s, a + b)
    decreases a
  {
    if a > 0 {
      StepKeepsValid(words, t, s);
      RunAdds(words, t, Step(words, t, s).next, a - 1, b);
    }
  }

  /** From `c` typed characters, the remaining `|w| - c` ticks finish typing the word and turn
      to deleting it. */
  lemma {:induction false} TypingFinishes(words: seq<JsString>, t: Timing, i: nat, c: nat)
    requires NonEmptyWords(words) && i < |words| && c < |words[i]|
    ensures Run(words, t, State(i, c, false), |words[i]| - c) == State(i, |words[i]|, true)
    decreases |words[i]| - c
  {
    var s := State(i, c, false);
    if c + 1 < |words[i]| {
      assert Step(words, t, s).next == State(i, c + 1, false);
      TypingFinishes(words, t, i, c + 1);
    } else {
      assert Step(words, t, s).next == State(i, |words[i]|, true);
    }
  }

  /** From `c` characters left, `c` more ticks delete them and move to the next word, in
      cyclic order. */
  lemma {:induction false} DeletingFinishes(words: seq<JsString>, t: Timing, i: nat, c: nat)
    requires NonEmptyWords(words) && i < |words| && 1 <= c <= |words[i]|
    ensures Run(words, t, State(i, c, true), c) == State((i + 1) % |words|, 0, false)
    decreases c
  {
    var s := State(i, c, true);
    if c > 1 {
      assert Step(words, t, s).next == State(i, c - 1, true);
      DeletingFinishes(words, t, i, c - 1);
    } else {
      assert Step(words, t, s).next == State((i + 1) % |words|, 0, false);
    }
  }

  /** A whole word takes twice its length in ticks: typed, then deleted, after which the word
      index has advanced by exactly one, modulo the number of words. */
  lemma WordCycle(words: seq<JsString>, t: Timing, i: nat)
    requires NonEmptyWords(words) && i < |words|
    ensures var n := |words[i]|;
            Run(words, t, State(i, 0, false), n + n) == State((i + 1) % |words|, 0, false)
  {
    var n := |words[i]|;
    assert words[i] != [] && n >= 1;
    var start := State(i, 0, false);
    assert Valid(words, start);
    TypingFinishes(words, t, i, 0);
    var mid := Run(words, t, start, n);
    assert mid == State(i, n, true);
    DeletingFinishes(words, t, i, n);
    RunAdds(words, t, start, n, n);
  }

  /** An empty word never finishes typing: the typewriter keeps typing, shows nothing and the
      character index grows past the word's end. */
  lemma EmptyWordStalls(words: seq<JsString>, t: Timing, s: State)
    requires s.wordIndex < |words| && words[s.wordIndex] == [] && !s.deleting && s.charIndex >= 0
    ensures var r := Step(words, t, s);
            r.text == [] && !r.next.deleting && r.next.charIndex == s.charIndex + 1 && r.delay == t.speed
  {
  }

  /** A word starting with a character above U+FFFF shows a lone high surrogate after the
      first tick, which is no character at all; the character appears whole on the second. */
  lemma AstralCharTakesTwoTicks(words: seq<string>, t: Timing, i: nat)
    requires i < |words| && words[i] != "" && words[i][0] as int >= 0x1_0000
    ensures var r := Step(Units(words), t, State(i, 0, false));
            && |r.text| == 1 && IsHigh(r.text[0]) && Decode(r.text) == None
            && !r.next.deleting && r.next.charIndex == 1
            && Step(Units(words), t, r.next).text == CharUnits(words[i][0])
  {
    var w := words[i];
    assert Units(words)[i] == Encode(w) == CharUnits(w[0]) + Encode(w[1..]);
  }

  /** The hero's words are all non-empty, so its typewriter cycles through them. */
  lemma HeroRolesCycle()
    ensures NonEmptyWords(Units(HeroRoles)) && Valid(Units(HeroRoles), Start)
  {
    var u := Units(HeroRoles);
    assert forall i | 0 <= i < |HeroRoles| :: HeroRoles[i] != "";
    forall i | 0 <= i < |u| ensures u[i] != [] {
      assert |u[i]| >= |HeroRoles[i]|;
    }
  }

  /** With the hero's timing (`speed` 100, `deleteSpeed` 50, `pause` 2000), the first tick
      shows the "S" of "Software Engineer" and schedules the next one 100 ms later. */
  lemma HeroFirstTick()
    ensures var r := Step(Units(HeroRoles), HeroTiming, Start);
            r.text == Encode("S") && r.next == State(0, 1, false) && r.delay == 100
  {
    var w := HeroRoles[0];
    assert |w| >= 2 && w[0] == 'S' && w[..1] == "S";
    assert Units(HeroRoles)[0] == Encode(w);
    FirstTick(Units(HeroRoles), HeroTiming, w);
  }

  /** A first word of two or more characters, the first below U+10000: the first tick shows
      that character and waits `speed`. */
  lemma FirstTick(words: seq<JsString>, t: Timing, w: string)
    requires |words| > 0 && words[0] == Encode(w) && |w| >= 2 && w[0] as int < 0x1_0000
    ensures var r := Step(words, t, Start);
            r.text == Encode(w[..1]) && r.next == State(0, 1, false) && r.delay == t.speed
  {
    assert Encode(w) == CharUnits(w[0]) + Encode(w[1..]);
    assert |Encode(w[1..])| >= 1;
    assert Encode(w[..1]) == CharUnits(w[0]) + Encode([]);
  }
}

=== FILE: utf16.dfy ===
/** JavaScript strings as the scripts see them: sequences of UTF-16 code units. `length`,
    indexing and `substring` count code units, and a character above U+FFFF occupies two of
    them (a surrogate pair). A Dafny `string` is a sequence of Unicode scalar values, so the
    model converts wherever the site's scripts count or cut. */
module Utf16 {
  import opened Wrappers

  /** One 16-bit code unit. */
  type CodeUnit = x: int | 0 <= x < 0x1_0000

  /** A string as JavaScript holds it: its code units. */
  type JsString = seq<CodeUnit>

  /** The first half of a surrogate pair. */
  predicate IsHigh(u: CodeUnit) {
    0xD800 <= u < 0xDC00
  }

  /** The second half of a surrogate pair. */
  predicate IsLow(u: CodeUnit) {
    0xDC00 <= u < 0xE000
  }

  /** The code units of one character: the character itself below U+10000, otherwise a high
      surrogate carrying the upper ten bits of `c - 0x10000` and a low one carrying the lower
      ten. */
  function CharUnits(c: char): (r: seq<CodeUnit>)
    ensures |r| == (if c as int < 0x1_0000 then 1 else 2)
    ensures |r| == 1 ==> !IsHigh(r[0]) && !IsLow(r[0]) && r[0] == c as int
    ensures |r| == 2 ==> IsHigh(r[0]) && IsLow(r[1])
  {
    var n := c as int;
    if n < 0x1_0000 then [n]
    else
      var v := n - 0x1_0000;
      [0xD800 + v / 0x400, 0xDC00 + v % 0x400]
  }

  /** The character a surrogate pair stands for. */
  function PairChar(hi: CodeUnit, lo: CodeUnit): (c: char)
    requires IsHigh(hi) && IsLow(lo)
    ensures c as int >= 0x1_0000
  {
    (0x1_0000 + (hi - 0xD800) * 0x400 + (lo - 0xDC00)) as char
  }

  /** The code units a JavaScript string holds for `s`, character by character. */
  function Encode(s: string): (r: seq<CodeUnit>)
    ensures |s| <= |r| <= 2 * |s|
    decreases |s|
  {
    if s == [] then [] else CharUnits(s[0]) + Encode(s[1..])
  }

  /** Below U+10000 every character is one code unit, so the JavaScript length is the number of
      characters. */
  lemma {:induction false} BmpLength(s: string)
    requires forall i | 0 <= i < |s| :: s[i] as int < 0x1_0000
    ensures |Encode(s)| == |s|
    decreases |s|
  {
    if s != [] {
      assert forall i | 0 <= i < |s[1..]| :: s[1..][i] as int < 0x1_0000 by {
        forall i | 0 <= i < |s[1..]| ensures s[1..][i] as int < 0x1_0000 {
          assert s[1..][i] == s[i + 1];
        }
      }
      BmpLength(s[1..]);
    }
  }

  /** `s.length` in JavaScript: the number of code units of `s`. */
  function Length(s: string): nat {
    |Encode(s)|
  }

  /** Reads code units back as characters: a high surrogate followed by a low one is one
      character, any other unit outside the surrogate range is itself, and a lone surrogate
      leaves the sequence without a reading (`None`). */
  function Decode(u: seq<CodeUnit>): (r: Option<string>)
    decreases |u|
  {
    if u == [] then Some([])
    else if |u| >= 2 && IsHigh(u[0]) && IsLow(u[1]) then
      var rest := Decode(u[2..]);
      if rest.None? then None else Some([PairChar(u[0], u[1])] + rest.value)
    else if IsHigh(u[0]) || IsLow(u[0]) then None
    else
      var rest := Decode(u[1..]);
      if rest.None? then None else Some([u[0] as char] + rest.value)
  }

  /** A character's code units read back as that character. */
  lemma CharRoundTrip(c: char, tail: seq<CodeUnit>)
    ensures var u := CharUnits(c) + tail;
            |CharUnits(c)| == 2 ==> IsHigh(u[0]) && IsLow(u[1]) && PairChar(u[0], u[1]) == c && u[2..] == tail
    ensures var u := CharUnits(c) + tail;
            |CharUnits(c)| == 1 ==> !IsHigh(u[0]) && !IsLow(u[0]) && u[0] as char == c && u[1..] == tail
  {
    var u := CharUnits(c) + tail;
    if c as int >= 0x1_0000 {
      var v := c as int - 0x1_0000;
      var hi, lo := u[0] as int, u[1] as int;
      assert hi - 0xD800 == v / 0x400 && lo - 0xDC00 == v % 0x400;
      assert 0x1_0000 + (hi - 0xD800) * 0x400 + (lo - 0xDC00) == c as int;
    }
  }

  /** Encoding then decoding gives back the string: the code units determine the characters. */
  lemma {:induction false} RoundTrip(s: string)
    ensures Decode(Encode(s)) == Some(s)
    decreases |s|
  {
    if s != [] {
      RoundTrip(s[1..]);
      CharRoundTrip(s[0], Encode(s[1..]));
      assert s == [s[0]] + s[1..];
    }
  }

  /** Cutting a character above U+FFFF after its first code unit leaves a lone high surrogate,
      which reads as no string at all. */
  lemma HalfPairIsIllFormed(c: char)
    requires c as int >= 0x1_0000
    ensures |Encode([c])| == 2 && IsHigh(Encode([c])[0])
    ensures Decode(Encode([c])[..1]) == None
  {
    assert Encode([c]) == CharUnits(c) + Encode([]);
  }

  /** An emoji such as U+1F600 has JavaScript length 2, while a letter has length 1. */
  lemma EmojiCountsTwice()
    ensures Length("\U{1F600}") == 2 && Length("a") == 1
  {
    assert Encode("\U{1F600}") == CharUnits('\U{1F600}') + Encode([]);
    assert Encode("a") == CharUnits('a') + Encode([]);
  }
}

=== FILE: wrappers.dfy ===
/** The optional value used wherever the site's scripts see `null`, `undefined` or `NaN`. */
module Wrappers {

  /** `None` stands for JavaScript's `null`/`undefined` (or `NaN` for a parsed number). */
  datatype Option<+T> = None | Some(value: T) {

    /** Returns the value held in `Some`, or `default` for `None` (JavaScript's `x || default`
        when `x` can only be falsy by being absent). */
    function GetOr(default: T): T {
      match this
      case Some(v) => v
      case None => default
    }
  }
}
